=== FILE: README.md ===
# Clustered email report generator — a Dafny model

The program reads a spreadsheet of customer-support emails that have already
been clustered (one row per email, with an integer `Cluster` column). It groups
the rows by cluster id and writes a Word report, in ascending cluster order.
For every cluster the report holds:

- a main issue: the first row that has a solution, or the first row when
  none has one;
- the cluster's other rows, except exact copies of a solved main issue (see
  below), listed as numbered similar issues.

Clusters are separated by `---` lines. The sentinel cluster 50000 is
different: each of its rows is written as a main issue of its own. When
cluster 5001, 10001, 15001, … arrives, the open document is closed and a new
one is started. Exactly 5000 clusters therefore still make a single document.

This project models that pipeline as pure functions over immutable data and
proves what each stage promises.

| module | file | what it holds |
|---|---|---|
| `Wrappers` | `wrappers.dfy` | `Option` and `Result` |
| `Seqs` | `seqs.dfy` | generic facts about joining, slicing and numbering sequences |
| `Text` | `text.dfy` | `String.trim`, `startsWith`, `replace` (all occurrences), the 10000-character truncation, decimal rendering of a counter |
| `Entries` | `entries.dfy` | the `EmailEntry` record and its field-wise `equals` |
| `Ingest` | `ingest.dfy` | the header map, the twelve required columns, reading and skipping data rows, `getCellValueAsString` |
| `Grouping` | `grouping.dfy` | the `TreeMap` from cluster id to rows, as a strictly ascending list of groups |
| `Selection` | `selection.dfy` | choosing a cluster's main issue and its similar issues |
| `Render` | `render.dfy` | the line templates, the bold rule, the sentinel cluster, separators |
| `Writer` | `writer.dfy` | the 5000-cluster split schedule, document paths, the writing loop, the whole run |

The written document is modelled as a sequence of items. Each item is either
`Line(text, bold)` (one run) or `Separator` (the `---` paragraph). A document
is its path and its items.

Three behaviours of the code are easy to miss:

- **Duplicates of the main issue.** When a solved row exists, the similar
  issues are the rows that are not field-wise `equals` to the main issue
  (src/main/java/EmailProcessorXLSX.java:308-312). So an exact duplicate of the
  main issue is not listed (`Selection.Select`,
  `Selection.DuplicatesDependOnSolution`). When no row is solved, the similar
  issues are simply rows 1.. (lines 300-303), so duplicates of the first row
  are kept.
- **Separators in the sentinel cluster.** The separator guard
  `clusterCount < size || !clusterRows.isEmpty()` (line 279) is evaluated
  inside the loop over the sentinel cluster's rows (line 227), where the list
  is never empty. So every sentinel row is followed by a separator, even when
  the sentinel cluster is the last cluster (`Render.SentinelItems`,
  `Render.ClusterEndsWithSeparator`). A regular cluster's separator (line
  387) is written only when the cluster is not the last.
- **Order of the sentinel cluster's items.** All runs of the sentinel cluster
  go into the one paragraph created for the cluster (line 222), while each
  separator is a new paragraph appended to the document (line 280). In the
  document, therefore, all rows' runs come first and the n separators follow
  them (`Render.SentinelShape`).

## Model

| member | source | states |
|---|---|---|
| `Text.Truncate` | src/main/java/EmailProcessorXLSX.java:233-235 | A text of at most 10000 characters is kept whole. A longer one becomes its first 10000 characters followed by `... [Truncated]`. The same cap is applied at lines 255-257, 318-320, 341-343, 352-354 and 365-367. |
| `Text.TruncateBound` | src/main/java/EmailProcessorXLSX.java:341-343 | A truncated text has at most 10015 characters, and exactly 10015 when it was cut. |
| `Text.TrimRemovesEnds` | src/main/java/EmailProcessorXLSX.java:419 | `trim` removes a run of characters at or below U+0020 from each end and nothing else. The result neither starts nor ends with such a character. |
| `Text.RemoveStarsIsReplace` | src/main/java/EmailProcessorXLSX.java:379 | Java's left-to-right `replace("**", "")` is the same as a direct removal of `**` pairs. |
| `Text.NatToDecimal` | src/main/java/EmailProcessorXLSX.java:200 | The file counter is rendered as a non-empty run of decimal digits with no leading zero. |
| `Text.DecimalRoundTrip` | src/main/java/EmailProcessorXLSX.java:406 | Reading back the rendered counter gives the counter, so distinct file numbers give distinct suffixes. |
| `Entries.SameEntryIsEquality` | src/main/java/EmailProcessorXLSX.java:62-77 | The record's `equals` (same cluster id and all eleven texts equal) holds exactly when the two records are identical. |
| `Ingest.CellString` | src/main/java/EmailProcessorXLSX.java:414-420 | An absent cell reads as `""`. A present cell reads as its formatted text with the surrounding whitespace removed: a run of characters at or below U+0020 at each end. |
| `Ingest.IndexByName` | src/main/java/EmailProcessorXLSX.java:121-124 | Repeated `put` produces a map whose keys are exactly the names present. Each key maps to the column of its last occurrence. |
| `Ingest.HeaderMapKeys` | src/main/java/EmailProcessorXLSX.java:121-124 | A name is in the header map if and only if some header cell trims to it. |
| `Ingest.HeaderMapLastWins` | src/main/java/EmailProcessorXLSX.java:122-124 | A later header cell with the same trimmed name overwrites an earlier one. |
| `Ingest.ResolveColumns` | src/main/java/EmailProcessorXLSX.java:126-144 | Resolution succeeds if and only if all twelve required names are in the header map. On success, column i is the map's value for required name i. |
| `Ingest.ReadRowByName` | src/main/java/EmailProcessorXLSX.java:126-178 | Once the header resolves, a row yields an entry exactly when the cell under the header name `Cluster` is numeric. The entry's cluster id is that cell's value, and its i-th text is the trimmed cell under the i-th required name (`docket_no` … `Solution`), or `""` when that cell is absent. |
| `Ingest.ReadRow` | src/main/java/EmailProcessorXLSX.java:165-178 | A row yields an entry if and only if its cluster cell is present and numeric. The entry carries that cell's value and the row's eleven texts. |
| `Ingest.ReadRowsAppend` | src/main/java/EmailProcessorXLSX.java:146-183 | The row loop reads consecutive stretches of rows independently and concatenates them in row order. |
| `Ingest.ReadRows` | src/main/java/EmailProcessorXLSX.java:146-183 | The row loop yields no more entries than there are data rows, since each row adds at most one. |
| `Ingest.ReadRowsMembership` | src/main/java/EmailProcessorXLSX.java:146-183 | An entry is ingested if and only if some existing data row yields it. |
| `Ingest.SkippedRowContributesNothing` | src/main/java/EmailProcessorXLSX.java:146-172 | Adding a row that does not exist, or whose cluster cell is not numeric, adds no entry. |
| `Ingest.ResolveSheet` | src/main/java/EmailProcessorXLSX.java:111-144 | The run fails with a missing sheet, a missing header row, or a missing required column, exactly in those situations and in that order of precedence. |
| `Ingest.ReadSheet` | src/main/java/EmailProcessorXLSX.java:110-184 | Ingestion fails exactly when the schema checks fail, with the same error. Otherwise the kept entries are exactly those yielded by existing rows with a numeric cluster cell. |
| `Ingest.MissingHeaderNameRejected` | src/main/java/EmailProcessorXLSX.java:139-144 | A header that lacks any one required name is rejected, whatever the data rows hold. |
| `Grouping.Add` | src/main/java/EmailProcessorXLSX.java:174-178 | `computeIfAbsent(...).add(e)` keeps keys ascending and adds e's key. It appends e to that key's list only, never leaves a list empty, and adds exactly one row. |
| `Grouping.GroupAll` | src/main/java/EmailProcessorXLSX.java:107-183 | Grouping all ingested rows gives strictly ascending keys, exactly the cluster ids seen, no empty list, and each key's rows in their original order. The total row count is preserved. |
| `Grouping.GroupHoldsClusterRows` | src/main/java/EmailProcessorXLSX.java:192-195 | The list iterated for each map entry is exactly that cluster's rows, in ingestion order. |
| `Grouping.ClusterRowsKeepsEveryCopy` | src/main/java/EmailProcessorXLSX.java:174 | Every row occurs in its own cluster's list as often as among the ingested rows: none is lost or duplicated. |
| `Selection.FirstSolved` | src/main/java/EmailProcessorXLSX.java:293-298 | Returns the first position with a non-empty solution, or nothing when no row has one. |
| `Selection.WithoutSpec` | src/main/java/EmailProcessorXLSX.java:308-312 | The filter removes every copy of the main issue and nothing else, and keeps the order of the rows it keeps. |
| `Selection.Select` | src/main/java/EmailProcessorXLSX.java:290-313 | With a solved row, the main issue is the first solved row. The similar issues are then all rows not equal to it, in order. Without one, the main issue is row 0 and the similar issues are rows 1.. in order. An empty cluster is skipped. |
| `Selection.SolvedMainNotAmongSimilar` | src/main/java/EmailProcessorXLSX.java:308-312 | With a solved row, the main issue never appears among the similar issues. Their number is n minus the main issue's copies. |
| `Selection.UnsolvedListsEveryOtherRow` | src/main/java/EmailProcessorXLSX.java:300-303 | Without a solved row there are exactly n - 1 similar issues, and every row after the first is among them. |
| `Selection.DuplicatesDependOnSolution` | src/main/java/EmailProcessorXLSX.java:300-312 | Two identical rows give no similar issue when solved and one when unsolved. |
| `Selection.SolvedRowPromoted` | src/main/java/EmailProcessorXLSX.java:293-298 | A solved second row becomes the main issue, with the unsolved first row as its only similar issue. |
| `Render.Style` | src/main/java/EmailProcessorXLSX.java:377-382 | A line is bold if and only if it starts with either marker. Bold text has every `**` removed, so none remains and it is shorter. Any other line is written verbatim. |
| `Render.StyleOfMarked` | src/main/java/EmailProcessorXLSX.java:377-379 | A marker line is written bold as the marker's bare label, followed by the rest of the line with `**` removed. |
| `Render.MarkerLinesBold` | src/main/java/EmailProcessorXLSX.java:269-271 | The two marker lines are written as bold `Main Issue:` and `Similar issues:`. |
| `Render.PlainUnlessStar` | src/main/java/EmailProcessorXLSX.java:380-381 | A line that is empty or does not start with `*` is written plain and unchanged. |
| `Render.StyledAt` | src/main/java/EmailProcessorXLSX.java:373-384 | The i-th run written is the i-th line under the bold rule. |
| `Render.ProblemDetails` | src/main/java/EmailProcessorXLSX.java:315-322 | The problem-details line is the truncated body. The emptiness guard makes no difference. |
| `Render.MainBlock` | src/main/java/EmailProcessorXLSX.java:324-346 | The main template has 18 lines, opening with the main marker and closing with the similar-issues marker. |
| `Render.SimilarBlock` | src/main/java/EmailProcessorXLSX.java:349-369 | Each similar issue's sub-block has 12 lines, each blank or indented. |
| `Render.SimilarSection` | src/main/java/EmailProcessorXLSX.java:348-370 | k similar issues write exactly 12k lines. |
| `Render.SimilarSectionLines` | src/main/java/EmailProcessorXLSX.java:350 | The i-th similar issue's first line is `"  " + (i + 1) + ". Issue reported : "` followed by its problem text. Its last line is blank. |
| `Render.SimilarSectionIndented` | src/main/java/EmailProcessorXLSX.java:350-369 | Every similar-issue line is blank or starts with a space, so none can trigger the bold rule. |
| `Render.ClusterLinesShape` | src/main/java/EmailProcessorXLSX.java:324-370 | A cluster with k similar issues has 18 + 12k lines. Line 0 is the main marker and line 17 the similar-issues marker. Similar issue i is numbered i + 1 at line 18 + 12i. |
| `Render.ClusterBoldLines` | src/main/java/EmailProcessorXLSX.java:373-384 | Apart from the three lines copied verbatim from the data (1, 4, 15), a line is bold if and only if it is line 0 or line 17. |
| `Render.SentinelBlockItems` | src/main/java/EmailProcessorXLSX.java:239-276 | A sentinel row writes 20 runs. Run 0 is bold `Main Issue:`, run 17 is bold `Similar issues:`, then come `None` and a blank line. There is no separator among them. |
| `Render.SentinelItems` | src/main/java/EmailProcessorXLSX.java:227-287 | A sentinel cluster of n rows writes 21n items (all 20n runs, then the n separators). Exactly n of them are separators, even when it is the last cluster. |
| `Render.SentinelShape` | src/main/java/EmailProcessorXLSX.java:222-287 | Item order follows the document: row j's own 20 runs sit at 20j .. 20j+19, in row order. They open with bold `Main Issue:`, and runs 17-19 are bold `Similar issues:`, `None` and a blank line. All items after the 20n runs are separators. |
| `Render.ClusterItems` | src/main/java/EmailProcessorXLSX.java:225-394 | The separators a cluster writes: one per row for the sentinel cluster. For a regular cluster, one if it is not the last cluster and none if it is. An empty regular cluster writes no separator. |
| `Render.RegularClusterShape` | src/main/java/EmailProcessorXLSX.java:386-394 | A non-sentinel cluster writes 18 + 12k lines. A separator follows exactly when its 1-based position is below the number of clusters, and it is the only separator. |
| `Render.RegularClusterItems` | src/main/java/EmailProcessorXLSX.java:290-384 | A non-empty regular cluster writes the selected main issue and similar issues: its first 18 + 12k runs are their lines under the bold rule. Run 1 is the main issue's problem, run 4 its truncated body, run 15 its truncated solution, and run 18 + 12i the numbered problem of similar issue i. |
| `Render.MainBlockFields` | src/main/java/EmailProcessorXLSX.java:326-342 | The main template carries the problem at line 1, the truncated body at line 4 and the truncated solution at line 15. |
| `Render.SolvedRowRendered` | src/main/java/EmailProcessorXLSX.java:290-384 | Rows A (unsolved) and B (solved, "Fixed") of cluster 7 are written as 30 runs, plus a separator unless the cluster is last. B's problem is run 1 and its solution run 15, and A is listed as similar issue 1 at run 18. |
| `Render.ClusterEndsWithSeparator` | src/main/java/EmailProcessorXLSX.java:279-286 | A cluster's items end with a separator exactly when it is not the last cluster, or when it is the sentinel cluster. |
| `Writer.FileOf` | src/main/java/EmailProcessorXLSX.java:198-199 | The cluster at 1-based position c goes to document ⌈c / 5000⌉. |
| `Writer.StartsNewFileExactly` | src/main/java/EmailProcessorXLSX.java:199 | The guard `c % 5000 == 1 && c > 1` holds exactly when cluster c belongs to the next document. |
| `Writer.ClusterLandsInOneFile` | src/main/java/EmailProcessorXLSX.java:187-220 | Every cluster lies in the position range of exactly one document. |
| `Writer.SingleFileExactly` | src/main/java/EmailProcessorXLSX.java:406 | Only one document is produced if and only if there are at most 5000 clusters. |
| `Writer.TwelveThousandClusters` | src/main/java/EmailProcessorXLSX.java:188 | 12000 clusters make three documents, holding clusters 1-5000, 5001-10000 and 10001-12000. |
| `Writer.SplitPathOfDocx` | src/main/java/EmailProcessorXLSX.java:200 | For a path whose only `.` starts its `.docx` ending, document n is written as `stem_n.docx`. |
| `Writer.SplitPath` | src/main/java/EmailProcessorXLSX.java:200 | For a path whose only `.` starts its `.docx` ending, document n goes to `stem_n.docx`. A path without `.docx` is left as it is, so every numbered document would go to the same path. |
| `Writer.ReportPartPath` | src/main/java/EmailProcessorXLSX.java:424 | With the fixed output path, document n is `ClusteredEmailReport_n.docx`. |
| `Writer.RenderAllAt` | src/main/java/EmailProcessorXLSX.java:192-193 | Cluster i (from 0) in key order is rendered at 1-based position i + 1 out of all clusters. |
| `Writer.WriteClusters` | src/main/java/EmailProcessorXLSX.java:192-222 | After the loop, each closed document holds its 5000 clusters under its numbered path. The open document holds the clusters since then, and nothing is lost or repeated. |
| `Writer.WriteLast` | src/main/java/EmailProcessorXLSX.java:405-410 | Closing the open document under the final path completes the document list described by `WriteFiles`. |
| `Writer.FinalPath` | src/main/java/EmailProcessorXLSX.java:406 | The last document is written under the numbered path unless it is document 1. For a `.docx` path, it keeps the base path exactly when it is document 1. |
| `Writer.WriteFiles` | src/main/java/EmailProcessorXLSX.java:187-220 | There is one document per 5000 clusters, and document f holds exactly clusters 5000(f-1)+1 .. 5000f. Every document but the last is numbered by its position. The last keeps the base path if and only if there are at most 5000 clusters. Concatenated, the documents hold every cluster's items once, in order. |
| `Writer.NonFinalFileEndsWithSeparator` | src/main/java/EmailProcessorXLSX.java:387-394 | Every document but the last ends with a separator: a separator depends on the global position, not on document boundaries. |
| `Writer.RenderedEndsWithSeparator` | src/main/java/EmailProcessorXLSX.java:387 | Every cluster but the last one overall ends with a separator. |
| `Writer.Report` | src/main/java/EmailProcessorXLSX.java:91-410 | A schema error stops the run with that error. Otherwise the run writes one document per 5000 clusters, and document f holds exactly the rendered clusters 5000(f-1)+1 .. 5000f. Every document but the last is numbered by its position. The last keeps the output path if and only if there are at most 5000 clusters. Together the documents hold every cluster's items in ascending cluster order. |

## Left out

- Apache POI is not modelled: workbook and sheet access, the XWPF document, paragraph, run, font and footer page-number field construction. A sheet is given as its header cells and rows; a document is its path and its items.
- `DataFormatter.formatCellValue` is not modelled. A present cell carries its formatted text as an opaque string.
- The `(int)` cast of a numeric cell's `double` value is not modelled, because it is floating point. A numeric cell carries an `int`.
- Header cells holding a number, a boolean, an error or a formula that does not yield text make `getStringCellValue` throw. The model assumes every header cell is text or blank. A blank header cell reads as the empty name, `HeaderCell(col, "")`.
- `getSheetAt(0)` on a workbook without sheets throws rather than returning null. The model folds both into the `NoSheet` error.
- The per-row `catch (Exception)` (line 179) is not modelled: in the model, reading a row cannot fail.
- Writing the files (`FileOutputStream`), the `main` entry point with its fixed input path, `System.gc()` with the memory report, and every `System.out` and `System.err` message are not modelled. They are I/O and runtime plumbing.
- The model renders every cluster before writing, whereas the source writes each cluster as it is rendered. The order of items is the same.
- Paragraphs, fonts and line breaks are not modelled. The model keeps the document order of runs and separators. For the sentinel cluster that order is all rows' runs, then the rows' separators, because the runs share the paragraph created at line 222 and each separator is a new paragraph (line 280).
- Java strings count UTF-16 code units and the model counts Dafny characters. They differ only for text outside the Basic Multilingual Plane.
- The `int` counters (`clusterCount`, `fileCounter`) are unbounded in the model. Wrap-around would need more than 2^31 clusters.
- Ingest.ReadSheet: states which entries are kept as membership only. Their order and multiplicity are fixed by its definition through `ReadRows`, whose stretch-by-stretch behaviour is `Ingest.ReadRowsAppend`.
- Render.ClusterBoldLines: leaves out lines 1, 4 and 15 (problem text, details, solution), which are copied from the data and follow `Render.Style` on whatever they hold.

=== FILE: entries.dfy ===
/** One spreadsheet row after ingestion: the EmailEntry record. */
module Entries {

  /** Eleven text fields and the integer cluster id, in the record's field order. */
  datatype Entry = Entry(
    docketNo: string,
    mailListId: string,
    mailId: string,
    ticketId: string,
    disposition: string,
    subDisposition: string,
    priority: string,
    problemReported: string,
    assignedToDept: string,
    processedBody: string,
    solution: string,
    cluster: int)

  /** The eleven text fields, in the order the spreadsheet columns are listed. */
  function TextFields(e: Entry): (fs: seq<string>)
    ensures |fs| == 11
  {
    [e.docketNo, e.mailListId, e.mailId, e.ticketId, e.disposition,
     e.subDisposition, e.priority, e.problemReported, e.assignedToDept,
     e.processedBody, e.solution]
  }

  /** EmailEntry.equals: the cluster ids and all eleven texts agree. */
  predicate SameEntry(a: Entry, b: Entry) {
    && a.cluster == b.cluster
    && a.docketNo == b.docketNo
    && a.mailListId == b.mailListId
    && a.mailId == b.mailId
    && a.ticketId == b.ticketId
    && a.disposition == b.disposition
    && a.subDisposition == b.subDisposition
    && a.priority == b.priority
    && a.problemReported == b.problemReported
    && a.assignedToDept == b.assignedToDept
    && a.processedBody == b.processedBody
    && a.solution == b.solution
  }

  /** The record's equals is structural equality of the whole record. */
  lemma SameEntryIsEquality(a: Entry, b: Entry)
    ensures SameEntry(a, b) <==> a == b
  {
  }

  /** A row counts as solved when its solution text is non-empty. */
  predicate HasSolution(e: Entry) {
    e.solution != ""
  }
}

=== FILE: grouping.dfy ===
/**
 * The cluster grouper.  The source accumulates rows in a TreeMap from cluster
 * id to a list of rows; here that map is a list of groups kept in strictly
 * ascending key order, which is also the order the writer iterates it in.
 */
module Grouping {
  import opened Entries

  /** One map entry: a cluster id and the rows filed under it, in arrival order. */
  datatype Group = Group(key: int, rows: seq<Entry>)

  /** Keys strictly ascending (so also pairwise distinct). */
  predicate Ascending(gs: seq<Group>) {
    forall i, j :: 0 <= i < j < |gs| ==> gs[i].key < gs[j].key
  }

  /** No key maps to an empty list. */
  predicate NonEmpty(gs: seq<Group>) {
    forall i :: 0 <= i < |gs| ==> gs[i].rows != []
  }

  /** The keys present in the map. */
  function Keys(gs: seq<Group>): set<int> {
    if gs == [] then {} else {gs[0].key} + Keys(gs[1..])
  }

  /** The cluster ids carried by a sequence of rows. */
  function ClusterIds(es: seq<Entry>): set<int> {
    set i | 0 <= i < |es| :: es[i].cluster
  }

  /** The rows filed under key k; empty when k is absent. */
  function RowsAt(gs: seq<Group>, k: int): seq<Entry> {
    if gs == [] then []
    else if gs[0].key == k then gs[0].rows
    else RowsAt(gs[1..], k)
  }

  /** How many rows the map holds in all. */
  function TotalRows(gs: seq<Group>): nat {
    if gs == [] then 0 else |gs[0].rows| + TotalRows(gs[1..])
  }

  /**
   * The reference grouping of one cluster: the rows of es whose cluster id is
   * c, in their original order.
   */
  function ClusterRows(es: seq<Entry>, c: int): (rs: seq<Entry>)
    ensures forall i :: 0 <= i < |rs| ==> rs[i].cluster == c
    ensures |rs| <= |es|
  {
    if es == [] then []
    else
      var last := es[|es| - 1];
      ClusterRows(es[..|es| - 1], c) + (if last.cluster == c then [last] else [])
  }

  lemma {:induction false} AbsentKeyHasNoRows(gs: seq<Group>, k: int)
    requires k !in Keys(gs)
    ensures RowsAt(gs, k) == []
  {
    if gs != [] {
      AbsentKeyHasNoRows(gs[1..], k);
    }
  }

  /** In an ascending map every later key exceeds the first. */
  lemma {:induction false} FirstKeyIsLeast(gs: seq<Group>, k: int)
    requires Ascending(gs)
    requires gs != []
    requires k in Keys(gs[1..])
    ensures gs[0].key < k
    decreases |gs|
  {
    var t := gs[1..];
    if t[0].key != k {
      assert Ascending([gs[0]] + t[1..]) by {
        assert forall i :: 0 < i < |t| ==> ([gs[0]] + t[1..])[i] == gs[i + 1];
      }
      assert ([gs[0]] + t[1..])[1..] == t[1..];
      FirstKeyIsLeast([gs[0]] + t[1..], k);
    }
  }

  /** A key below an ascending map's first key is not in the map. */
  lemma BelowFirstKeyIsAbsent(gs: seq<Group>, k: int)
    requires Ascending(gs) && gs != []
    requires k < gs[0].key
    ensures k !in Keys(gs)
  {
    if k in Keys(gs[1..]) {
      FirstKeyIsLeast(gs, k);
    }
  }

  /**
   * computeIfAbsent(e.cluster, new list).add(e): the map gains e's key if it
   * was absent, e is appended to that key's list, and nothing else changes.
   */
  function Add(gs: seq<Group>, e: Entry): (r: seq<Group>)
    requires Ascending(gs)
    ensures Ascending(r)
    ensures Keys(r) == Keys(gs) + {e.cluster}
    ensures forall k :: RowsAt(r, k) == RowsAt(gs, k) + (if k == e.cluster then [e] else [])
    ensures NonEmpty(gs) ==> NonEmpty(r)
    ensures TotalRows(r) == TotalRows(gs) + 1
  {
    if gs == [] then
      [Group(e.cluster, [e])]
    else if gs[0].key == e.cluster then
      AddToFirst(gs, e);
      [Group(e.cluster, gs[0].rows + [e])] + gs[1..]
    else if e.cluster < gs[0].key then
      AddInFront(gs, e);
      [Group(e.cluster, [e])] + gs
    else
      var tail := Add(gs[1..], e);
      AddBehind(gs, tail, e);
      [gs[0]] + tail
  }

  /** r is gs with e added: Add's contract, bundled for its case lemmas. */
  ghost predicate Added(gs: seq<Group>, e: Entry, r: seq<Group>) {
    && Ascending(r)
    && Keys(r) == Keys(gs) + {e.cluster}
    && (forall k :: RowsAt(r, k) == RowsAt(gs, k) + (if k == e.cluster then [e] else []))
    && (NonEmpty(gs) ==> NonEmpty(r))
    && TotalRows(r) == TotalRows(gs) + 1
  }

  /** Adding under the first key extends that key's list. */
  lemma AddToFirst(gs: seq<Group>, e: Entry)
    requires Ascending(gs) && gs != []
    requires gs[0].key == e.cluster
    ensures Added(gs, e, [Group(e.cluster, gs[0].rows + [e])] + gs[1..])
  {
    var r := [Group(e.cluster, gs[0].rows + [e])] + gs[1..];
    assert r[1..] == gs[1..];
  }

  /** Adding a key below the first one puts a new group in front. */
  lemma AddInFront(gs: seq<Group>, e: Entry)
    requires Ascending(gs) && gs != []
    requires e.cluster < gs[0].key
    ensures Added(gs, e, [Group(e.cluster, [e])] + gs)
  {
    var r := [Group(e.cluster, [e])] + gs;
    assert r[1..] == gs;
    BelowFirstKeyIsAbsent(gs, e.cluster);
    AbsentKeyHasNoRows(gs, e.cluster);
  }

  /** Adding a key above the first one leaves the first group in front of the updated rest. */
  lemma AddBehind(gs: seq<Group>, tail: seq<Group>, e: Entry)
    requires Ascending(gs) && gs != []
    requires gs[0].key < e.cluster
    requires Added(gs[1..], e, tail)
    ensures Added(gs, e, [gs[0]] + tail)
  {
    var r := [gs[0]] + tail;
    assert r[1..] == tail;
    AddKeepsAscending(gs, tail, e);
    if NonEmpty(gs) {
      assert NonEmpty(gs[1..]) by {
        forall i | 0 <= i < |gs| - 1 ensures gs[1..][i].rows != [] {
          assert gs[1..][i] == gs[i + 1];
        }
      }
      assert forall i :: 0 < i < |r| ==> r[i] == tail[i - 1];
    }
    forall k
      ensures RowsAt(r, k) == RowsAt(gs, k) + (if k == e.cluster then [e] else [])
    {
      if k != gs[0].key {
        assert RowsAt(r, k) == RowsAt(tail, k);
      }
    }
  }

  /** Putting the first group back in front of the updated rest stays ascending. */
  lemma AddKeepsAscending(gs: seq<Group>, tail: seq<Group>, e: Entry)
    requires Ascending(gs) && gs != []
    requires gs[0].key < e.cluster
    requires Ascending(tail)
    requires Keys(tail) == Keys(gs[1..]) + {e.cluster}
    ensures Ascending([gs[0]] + tail)
  {
    var r := [gs[0]] + tail;
    forall j | 0 < j < |r|
      ensures gs[0].key < r[j].key
    {
      KeyInKeys(tail, j - 1);
      if r[j].key != e.cluster {
        FirstKeyIsLeast(gs, r[j].key);
      }
    }
  }

  lemma {:induction false} KeyInKeys(gs: seq<Group>, i: nat)
    requires i < |gs|
    ensures gs[i].key in Keys(gs)
  {
    if i > 0 {
      KeyInKeys(gs[1..], i - 1);
    }
  }

  /**
   * The grouping loop: every ingested entry added in order.  The result has
   * strictly ascending keys, one per cluster id seen, no empty list, holds
   * each key's rows in original order, and holds every row exactly once.
   */
  function GroupAll(es: seq<Entry>): (gs: seq<Group>)
    ensures Ascending(gs)
    ensures NonEmpty(gs)
    ensures Keys(gs) == ClusterIds(es)
    ensures forall k :: RowsAt(gs, k) == ClusterRows(es, k)
    ensures TotalRows(gs) == |es|
  {
    if es == [] then []
    else
      var init := es[..|es| - 1];
      var last := es[|es| - 1];
      var gs := Add(GroupAll(init), last);
      ClusterIdsOfLast(es);
      gs
  }

  /** The cluster ids of a sequence are those of all but its last row, plus the last row's. */
  lemma ClusterIdsOfLast(es: seq<Entry>)
    requires es != []
    ensures ClusterIds(es) == ClusterIds(es[..|es| - 1]) + {es[|es| - 1].cluster}
  {
    var init := es[..|es| - 1];
    forall x | x in ClusterIds(es)
      ensures x in ClusterIds(init) + {es[|es| - 1].cluster}
    {
      var i :| 0 <= i < |es| && es[i].cluster == x;
      if i < |init| {
        assert init[i].cluster == x;
      }
    }
    forall x | x in ClusterIds(init)
      ensures x in ClusterIds(es)
    {
      var i :| 0 <= i < |init| && init[i].cluster == x;
      assert es[i].cluster == x;
    }
  }

  /** In an ascending map, the rows at a group's key are that group's rows. */
  lemma {:induction false} RowsAtOwnKey(gs: seq<Group>, i: nat)
    requires Ascending(gs)
    requires i < |gs|
    ensures RowsAt(gs, gs[i].key) == gs[i].rows
  {
    if i > 0 {
      assert gs[0].key < gs[i].key;
      assert gs[1..][i - 1] == gs[i];
      RowsAtOwnKey(gs[1..], i - 1);
    }
  }

  /** Each group of the grouping holds exactly its cluster's rows, in original order. */
  lemma GroupHoldsClusterRows(es: seq<Entry>, i: nat)
    requires i < |GroupAll(es)|
    ensures GroupAll(es)[i].rows == ClusterRows(es, GroupAll(es)[i].key)
  {
    RowsAtOwnKey(GroupAll(es), i);
  }

  /**
   * A row appears in its own cluster's list as often as it appears among the
   * ingested rows: no row is lost or duplicated.
   */
  lemma {:induction false} ClusterRowsKeepsEveryCopy(es: seq<Entry>, e: Entry)
    ensures multiset(ClusterRows(es, e.cluster))[e] == multiset(es)[e]
  {
    if es != [] {
      var init := es[..|es| - 1];
      var last := es[|es| - 1];
      ClusterRowsKeepsEveryCopy(init, e);
      assert es == init + [last];
      assert multiset(es) == multiset(init) + multiset{last};
      var mine := if last.cluster == e.cluster then [last] else [];
      assert multiset(ClusterRows(es, e.cluster)) == multiset(ClusterRows(init, e.cluster)) + multiset(mine);
    }
  }
}

=== FILE: ingest.dfy ===
/**
 * Reading the first sheet: resolving the required header names to column
 * positions and turning each data row into an Entry, or skipping it.
 * Workbook access itself is not modelled: a sheet is given as its header
 * cells and its data rows, each cell already reduced to the text the
 * spreadsheet library formats for it.
 */
module Ingest {
  import opened Wrappers
  import opened Text
  import opened Entries
  import opened Seqs

  /**
   * A cell as the ingestion loop sees it: absent (getCell returned null),
   * numeric (its integer value and its formatted text), or of any other kind
   * (string, boolean, formula, blank, error) with its formatted text.
   */
  datatype Cell = Missing | Numeric(value: int, shown: string) | NonNumeric(shown: string)

  /** A data row: cells by column index; columns past the end are absent. */
  type Row = seq<Cell>

  /** A header cell as iterated: its column index and its text. */
  datatype HeaderCell = HeaderCell(column: nat, name: string)

  /**
   * The first sheet: the header row (absent when row 0 does not exist) and
   * data rows 1..lastRowNum (None for a row that does not exist).
   */
  datatype Sheet = Sheet(header: Option<seq<HeaderCell>>, rows: seq<Option<Row>>)

  /** The fatal conditions, each reported as an IOException by the source. */
  datatype SchemaError = NoSheet | NoHeaderRow | MissingColumns

  /** The twelve column names the header must contain, in record field order. */
  const RequiredColumns: seq<string> := [
    "docket_no", "mail_list_id", "mail_id", "ticket_id", "disposition_name",
    "sub_disposition_name", "priority_name", "problem_reported",
    "assigned_to_dept_name", "ProcessedBody_cleaned", "Solution", "Cluster"]

  /** Row.getCell: the cell at a column, Missing when it does not exist. */
  function CellAt(row: Row, column: nat): Cell {
    if column < |row| then row[column] else Missing
  }

  /**
   * getCellValueAsString: "" for an absent cell; otherwise its formatted text
   * with surrounding whitespace removed.
   */
  function CellString(c: Cell): (r: string)
    ensures c.Missing? ==> r == ""
    ensures !c.Missing? ==> IsTrimOf(r, c.shown)
  {
    if c.Missing? then ""
    else
      TrimRemovesEnds(c.shown);
      Trim(c.shown)
  }

  // -------------------------------------------------------------- header

  /** The header cells as (trimmed name, column) pairs, in iteration order. */
  function HeaderNames(cells: seq<HeaderCell>): seq<(string, nat)> {
    seq(|cells|, i requires 0 <= i < |cells| => (Trim(cells[i].name), cells[i].column))
  }

  /**
   * The header map built by repeated put: a name that occurs more than once
   * maps to the column of its last occurrence.
   */
  function IndexByName(named: seq<(string, nat)>): (m: map<string, nat>)
    ensures forall k :: k in m <==> LastIndex(named, k) >= 0
    ensures forall k :: k in m ==> m[k] == named[LastIndex(named, k)].1
  {
    if named == [] then map[]
    else
      var last := named[|named| - 1];
      IndexByName(named[..|named| - 1])[last.0 := last.1]
  }

  /**
   * The position of the last pair named k, found by searching backwards;
   * -1 when no pair carries that name.
   */
  function LastIndex(named: seq<(string, nat)>, k: string): (i: int)
    ensures -1 <= i < |named|
    ensures i >= 0 ==> named[i].0 == k
    ensures forall j :: i < j < |named| ==> named[j].0 != k
  {
    if named == [] then -1
    else if named[|named| - 1].0 == k then |named| - 1
    else
      var i := LastIndex(named[..|named| - 1], k);
      assert forall j :: i < j < |named| - 1 ==> named[j] == named[..|named| - 1][j];
      i
  }

  /** The header map of the header row. */
  function HeaderMap(cells: seq<HeaderCell>): map<string, nat> {
    IndexByName(HeaderNames(cells))
  }

  /** A name is a key of the header map exactly when some header cell trims to it. */
  lemma HeaderMapKeys(cells: seq<HeaderCell>, k: string)
    ensures k in HeaderMap(cells) <==> exists i :: 0 <= i < |cells| && Trim(cells[i].name) == k
  {
    var named := HeaderNames(cells);
    if exists i :: 0 <= i < |cells| && Trim(cells[i].name) == k {
      var i :| 0 <= i < |cells| && Trim(cells[i].name) == k;
      assert named[i].0 == k;
    }
  }

  /**
   * Later duplicates overwrite earlier ones: a name maps to the column of the
   * last header cell that trims to it.
   */
  lemma HeaderMapLastWins(cells: seq<HeaderCell>, i: nat)
    requires i < |cells|
    requires forall j :: i < j < |cells| ==> Trim(cells[j].name) != Trim(cells[i].name)
    ensures Trim(cells[i].name) in HeaderMap(cells)
    ensures HeaderMap(cells)[Trim(cells[i].name)] == cells[i].column
  {
    var named := HeaderNames(cells);
    var k := Trim(cells[i].name);
    assert named[i].0 == k;
    assert LastIndex(named, k) == i;
  }

  /** The resolved positions of the twelve required columns. */
  datatype Columns = Columns(
    docketNo: nat, mailListId: nat, mailId: nat, ticketId: nat,
    disposition: nat, subDisposition: nat, priority: nat,
    problemReported: nat, assignedToDept: nat, processedBody: nat,
    solution: nat, cluster: nat)

  /** The resolved positions in the order of RequiredColumns. */
  function ColumnList(c: Columns): (cs: seq<nat>)
    ensures |cs| == |RequiredColumns|
  {
    [c.docketNo, c.mailListId, c.mailId, c.ticketId, c.disposition,
     c.subDisposition, c.priority, c.problemReported, c.assignedToDept,
     c.processedBody, c.solution, c.cluster]
  }

  /**
   * Looks every required name up in the header map; fails when any one of
   * them is absent.
   */
  function ResolveColumns(header: map<string, nat>): (r: Option<Columns>)
    ensures r.Some? <==> forall n :: n in RequiredColumns ==> n in header
    ensures r.Some? ==>
      forall i :: 0 <= i < |RequiredColumns| ==> ColumnList(r.value)[i] == header[RequiredColumns[i]]
  {
    if forall n :: n in RequiredColumns ==> n in header then
      var c := RequiredColumns;
      Some(Columns(header[c[0]], header[c[1]], header[c[2]], header[c[3]], header[c[4]],
                   header[c[5]], header[c[6]], header[c[7]], header[c[8]], header[c[9]],
                   header[c[10]], header[c[11]]))
    else
      None
  }

  // ---------------------------------------------------------------- rows

  /** The eleven texts of a row, read from the resolved columns in field order. */
  function FieldTexts(cols: Columns, row: Row): seq<string> {
    seq(11, i requires 0 <= i < 11 => CellString(CellAt(row, ColumnList(cols)[i])))
  }

  /**
   * One data row: kept exactly when its cluster cell is numeric, in which
   * case its i-th text field is read from the i-th required column.
   */
  function ReadRow(cols: Columns, row: Row): (r: Option<Entry>)
    ensures r.Some? <==> CellAt(row, cols.cluster).Numeric?
    ensures r.Some? ==> r.value.cluster == CellAt(row, cols.cluster).value
    ensures r.Some? ==> TextFields(r.value) == FieldTexts(cols, row)
  {
    var clusterCell := CellAt(row, cols.cluster);
    if clusterCell.Numeric? then
      var t := FieldTexts(cols, row);
      Some(Entry(t[0], t[1], t[2], t[3], t[4], t[5], t[6], t[7], t[8], t[9], t[10], clusterCell.value))
    else
      None
  }

  /**
   * End to end, through the resolved columns: a row is kept exactly when the
   * cell under the header named "Cluster" is numeric, and then each text
   * field is read from the column whose header carries that field's name.
   */
  lemma ReadRowByName(header: map<string, nat>, row: Row)
    requires ResolveColumns(header).Some?
    ensures "Cluster" in header
    ensures var r := ReadRow(ResolveColumns(header).value, row);
      && (r.Some? <==> CellAt(row, header["Cluster"]).Numeric?)
      && (r.Some? ==> r.value.cluster == CellAt(row, header["Cluster"]).value)
      && (r.Some? ==> forall i :: 0 <= i < 11 ==>
            TextFields(r.value)[i] == CellString(CellAt(row, header[RequiredColumns[i]])))
  {
    var cols := ResolveColumns(header).value;
    assert RequiredColumns[11] == "Cluster";
    assert ColumnList(cols)[11] == cols.cluster;
    var r := ReadRow(cols, row);
    if r.Some? {
      forall i | 0 <= i < 11
        ensures TextFields(r.value)[i] == CellString(CellAt(row, header[RequiredColumns[i]]))
      {
        assert TextFields(r.value)[i] == FieldTexts(cols, row)[i];
      }
    }
  }

  /** What one sheet row contributes: nothing for an absent or skipped row. */
  function RowEntries(cols: Columns, row: Option<Row>): seq<Entry> {
    match row
    case None => []
    case Some(cells) =>
      match ReadRow(cols, cells)
      case None => []
      case Some(e) => [e]
  }

  /** The ingestion loop over rows 1..lastRowNum, in row order. */
  function ReadRows(cols: Columns, rows: seq<Option<Row>>): (es: seq<Entry>)
    ensures |es| <= |rows|
  {
    if rows == [] then []
    else ReadRows(cols, rows[..|rows| - 1]) + RowEntries(cols, rows[|rows| - 1])
  }

  /** Row i of the sheet exists and yields entry e. */
  ghost predicate RowYields(cols: Columns, rows: seq<Option<Row>>, i: int, e: Entry) {
    0 <= i < |rows| && e in RowEntries(cols, rows[i])
  }

  /** The loop reads consecutive stretches of rows independently, in order. */
  lemma {:induction false} ReadRowsAppend(cols: Columns, xs: seq<Option<Row>>, ys: seq<Option<Row>>)
    ensures ReadRows(cols, xs + ys) == ReadRows(cols, xs) + ReadRows(cols, ys)
    decreases |ys|
  {
    if ys == [] {
      assert xs + ys == xs;
    } else {
      var ys0 := ys[..|ys| - 1];
      assert (xs + ys)[..|xs + ys| - 1] == xs + ys0;
      ReadRowsAppend(cols, xs, ys0);
    }
  }

  /**
   * An entry is ingested exactly when some existing row with a numeric
   * cluster cell yields it.
   */
  lemma ReadRowsMembership(cols: Columns, rows: seq<Option<Row>>, e: Entry)
    ensures e in ReadRows(cols, rows) <==> exists i :: RowYields(cols, rows, i, e)
  {
    if e in ReadRows(cols, rows) {
      ReadRowsSound(cols, rows, e);
    }
    if exists i :: RowYields(cols, rows, i, e) {
      var i :| RowYields(cols, rows, i, e);
      ReadRowsComplete(cols, rows, i, e);
    }
  }

  /** Every ingested entry comes from some row. */
  lemma {:induction false} ReadRowsSound(cols: Columns, rows: seq<Option<Row>>, e: Entry)
    requires e in ReadRows(cols, rows)
    ensures exists i :: RowYields(cols, rows, i, e)
    decreases |rows|
  {
    var n := |rows| - 1;
    var init := rows[..n];
    assert ReadRows(cols, rows) == ReadRows(cols, init) + RowEntries(cols, rows[n]);
    if e in ReadRows(cols, init) {
      ReadRowsSound(cols, init, e);
      var i :| RowYields(cols, init, i, e);
      assert rows[i] == init[i];
      assert RowYields(cols, rows, i, e);
    } else {
      assert RowYields(cols, rows, n, e);
    }
  }

  /** Every entry a row yields is ingested. */
  lemma {:induction false} ReadRowsComplete(cols: Columns, rows: seq<Option<Row>>, i: int, e: Entry)
    requires RowYields(cols, rows, i, e)
    ensures e in ReadRows(cols, rows)
    decreases |rows|
  {
    var n := |rows| - 1;
    var init := rows[..n];
    assert ReadRows(cols, rows) == ReadRows(cols, init) + RowEntries(cols, rows[n]);
    var before := ReadRows(cols, init);
    if i < n {
      assert init[i] == rows[i];
      ReadRowsComplete(cols, init, i, e);
    } else {
      InSecondPart(before, RowEntries(cols, rows[n]), e);
    }
  }

  /** A row that does not exist, or whose cluster cell is not numeric, contributes nothing. */
  lemma SkippedRowContributesNothing(cols: Columns, rows: seq<Option<Row>>, row: Option<Row>)
    requires row.None? || !CellAt(row.value, cols.cluster).Numeric?
    ensures ReadRows(cols, rows + [row]) == ReadRows(cols, rows)
  {
    assert (rows + [row])[..|rows|] == rows;
  }

  // ------------------------------------------------------------- ingest

  /**
   * The schema checks: the sheet must exist, have a header row, and name
   * every required column.
   */
  function ResolveSheet(sheet: Option<Sheet>): (r: Result<Columns, SchemaError>)
    ensures sheet.None? ==> r == Err(NoSheet)
    ensures sheet.Some? && sheet.value.header.None? ==> r == Err(NoHeaderRow)
    ensures sheet.Some? && sheet.value.header.Some? ==>
      (r == Err(MissingColumns) <==>
         exists n :: n in RequiredColumns && n !in HeaderMap(sheet.value.header.value))
    ensures r.Ok? ==>
      && sheet.Some? && sheet.value.header.Some?
      && ResolveColumns(HeaderMap(sheet.value.header.value)) == Some(r.value)
  {
    match sheet
    case None => Err(NoSheet)
    case Some(Sheet(header, _)) =>
      match header
      case None => Err(NoHeaderRow)
      case Some(cells) =>
        match ResolveColumns(HeaderMap(cells))
        case None => Err(MissingColumns)
        case Some(cols) => Ok(cols)
  }

  /**
   * The whole ingestion step: the schema checks, then every data row read in
   * order, skipping those without a numeric cluster cell.
   */
  function ReadSheet(sheet: Option<Sheet>): (r: Result<seq<Entry>, SchemaError>)
    ensures r.Err? <==> ResolveSheet(sheet).Err?
    ensures r.Err? ==> r.error == ResolveSheet(sheet).error
    ensures r.Ok? ==> sheet.Some? && KeepsExactly(sheet.value, r.value)
  {
    match ResolveSheet(sheet)
    case Err(e) => Err(e)
    case Ok(cols) =>
      var rows := sheet.value.rows;
      var es := ReadRows(cols, rows);
      forall e ensures e in es <==> exists i :: RowYields(cols, rows, i, e) {
        ReadRowsMembership(cols, rows, e);
      }
      Ok(es)
  }

  /**
   * The header resolves, and the entries are exactly those yielded by
   * existing rows whose cluster cell is numeric.
   */
  ghost predicate KeepsExactly(sheet: Sheet, es: seq<Entry>) {
    && sheet.header.Some?
    && var cols := ResolveColumns(HeaderMap(sheet.header.value));
    && cols.Some?
    && forall e :: e in es <==> exists i :: RowYields(cols.value, sheet.rows, i, e)
  }

  /** A header without a required name is rejected whatever the data rows hold. */
  lemma MissingHeaderNameRejected(cells: seq<HeaderCell>, rows: seq<Option<Row>>, n: string)
    requires n in RequiredColumns
    requires forall i :: 0 <= i < |cells| ==> Trim(cells[i].name) != n
    ensures ReadSheet(Some(Sheet(Some(cells), rows))) == Err(MissingColumns)
  {
    HeaderMapKeys(cells, n);
  }
}

=== FILE: render.dfy ===
/**
 * The cluster renderer: the text lines of a cluster's block, the bold rule
 * applied to each line, and the separators that follow blocks.  The output
 * document is modelled as an ordered sequence of items; paragraph structure,
 * fonts and line breaks are not modelled.
 */
module Render {
  import opened Text
  import opened Entries
  import opened Grouping
  import opened Selection
  import opened Wrappers
  import opened Seqs

  /** One written run: a line of text and whether it is bold; or a "---" separator. */
  datatype Item = Line(text: string, bold: bool) | Separator

  /** The cluster id whose rows are each written as an independent main issue. */
  const SentinelCluster: int := 50000

  const MainMarker: string := "**Main Issue:**"
  const SimilarMarker: string := "**Similar issues:**"

  // ------------------------------------------------------------ bold rule

  /**
   * The bold rule: a line that starts with either marker is written bold with
   * every "**" removed; any other line is written as it is.
   */
  function Style(line: string): (it: Item)
    ensures it.Line?
    ensures it.bold <==> StartsWith(line, MainMarker) || StartsWith(line, SimilarMarker)
    ensures !it.bold ==> it.text == line
    ensures it.bold ==> it.text == RemoveStars(line)
    ensures it.bold ==> NoDoubleStar(it.text) && |it.text| < |line|
  {
    if StartsWith(line, MainMarker) || StartsWith(line, SimilarMarker) then
      RemoveStarsIsReplace(line);
      RemoveMarkerShortens(line);
      Line(ReplaceAll(line, "**", ""), true)
    else
      Line(line, false)
  }

  /** A line that starts with "**" loses at least those two characters. */
  lemma RemoveMarkerShortens(line: string)
    requires StartsWith(line, MainMarker) || StartsWith(line, SimilarMarker)
    ensures |RemoveStars(line)| < |line|
  {
    var m := if StartsWith(line, MainMarker) then MainMarker else SimilarMarker;
    assert line[..|m|] == m;
    assert line[0] == m[0] == '*' && line[1] == m[1] == '*';
    assert line[..2] == "**";
    assert |RemoveStars(line[2..])| <= |line| - 2;
  }

  /** Each marker is its label between two "**". */
  lemma MarkerSpelling()
    ensures MainMarker == "**" + "Main Issue:" + "**"
    ensures SimilarMarker == "**" + "Similar issues:" + "**"
  {
  }

  /** Removing "**" from a marker line strips the marker to its label and filters the rest alone. */
  lemma MarkerStripped(marker: string, word: string, rest: string)
    requires (marker == MainMarker && word == "Main Issue:")
          || (marker == SimilarMarker && word == "Similar issues:")
    ensures ReplaceAll(marker + rest, "**", "") == word + ReplaceAll(rest, "**", "")
  {
    MarkerSpelling();
    assert marker + rest == "**" + (word + ("**" + rest));
    assert '*' !in word;
    StripEnclosed(word, rest);
  }

  /** Removing "**" from a label enclosed in "**" leaves the label, then the filtered rest. */
  lemma StripEnclosed(word: string, rest: string)
    requires '*' !in word
    ensures ReplaceAll("**" + (word + ("**" + rest)), "**", "") == word + ReplaceAll(rest, "**", "")
  {
    ReplaceAtFront(word + ("**" + rest), "**", "");
    ReplaceAfterPlain(word, "**" + rest, "**", "");
    ReplaceAtFront(rest, "**", "");
  }

  /** A marker followed by any text is written bold as the label followed by the filtered text. */
  lemma StyleOfMarked(marker: string, word: string, rest: string)
    requires (marker == MainMarker && word == "Main Issue:")
          || (marker == SimilarMarker && word == "Similar issues:")
    ensures Style(marker + rest) == Line(word + ReplaceAll(rest, "**", ""), true)
  {
    assert (marker + rest)[..|marker|] == marker;
    MarkerStripped(marker, word, rest);
  }

  /** The two marker lines of a block are written bold as their bare labels. */
  lemma MarkerLinesBold()
    ensures Style(MainMarker) == Line("Main Issue:", true)
    ensures Style(SimilarMarker) == Line("Similar issues:", true)
  {
    StyleOfMarked(MainMarker, "Main Issue:", "");
    StyleOfMarked(SimilarMarker, "Similar issues:", "");
    assert MainMarker + "" == MainMarker;
    assert SimilarMarker + "" == SimilarMarker;
    assert ReplaceAll("", "**", "") == "";
  }

  /** A line that is empty or starts with anything but '*' is written plain. */
  lemma PlainUnlessStar(line: string)
    requires line == [] || line[0] != '*'
    ensures Style(line) == Line(line, false)
  {
    if line != [] {
      assert line[0] != MainMarker[0];
    }
  }

  /** Applies the bold rule to every line, in order. */
  function Styled(lines: seq<string>): (items: seq<Item>)
    ensures |items| == |lines|
  {
    if lines == [] then []
    else Styled(lines[..|lines| - 1]) + [Style(lines[|lines| - 1])]
  }

  /** The i-th written item is the i-th line under the bold rule. */
  lemma {:induction false} StyledAt(lines: seq<string>, i: nat)
    requires i < |lines|
    ensures Styled(lines)[i] == Style(lines[i])
    decreases |lines|
  {
    if i < |lines| - 1 {
      StyledAt(lines[..|lines| - 1], i);
    }
  }

  // --------------------------------------------------------------- blocks

  /** The main issue's problem details: its body, truncated, or "" when empty. */
  function ProblemDetails(e: Entry): (d: string)
    ensures d == Truncate(e.processedBody)
  {
    if e.processedBody != "" then Truncate(e.processedBody) else ""
  }

  /** The fixed eighteen-line main-issue template, ending with the similar-issues marker. */
  function MainBlock(e: Entry): (lines: seq<string>)
    ensures |lines| == 18
    ensures lines[0] == MainMarker && lines[17] == SimilarMarker
  {
    [MainMarker,
     e.problemReported,
     "",
     "Problem Details:",
     ProblemDetails(e),
     "Disposition: " + e.disposition,
     "SubDisposition: " + e.subDisposition,
     "Priority: " + e.priority,
     "- Docket No: " + e.docketNo,
     "- Mail List ID: " + e.mailListId,
     "- Mail ID: " + e.mailId,
     "- Ticket ID: " + e.ticketId,
     "- Assigned To Dept: " + e.assignedToDept,
     "",
     "Solution:",
     Truncate(e.solution),
     "",
     SimilarMarker]
  }

  /** The numbering prefix of the n-th similar issue's first line. */
  function Numbered(n: nat): string {
    "  " + NatToDecimal(n) + ". Issue reported : "
  }

  /** The twelve-line indented sub-block of the similar issue numbered n. */
  function SimilarBlock(n: nat, e: Entry): (lines: seq<string>)
    ensures |lines| == 12
    ensures forall j :: 0 <= j < 12 ==> lines[j] == [] || lines[j][0] == ' '
  {
    [Numbered(n) + e.problemReported,
     "     Problem Details: " + Truncate(e.processedBody),
     "     - Docket No: " + e.docketNo,
     "     - Mail List ID: " + e.mailListId,
     "     - Mail ID: " + e.mailId,
     "     - Ticket ID: " + e.ticketId,
     "     - Disposition: " + e.disposition,
     "     - SubDisposition: " + e.subDisposition,
     "     - Priority: " + e.priority,
     "     - Assigned To Dept: " + e.assignedToDept,
     "     - Solution: " + Truncate(e.solution),
     ""]
  }

  /** The sub-blocks of the similar issues, the i-th (from 0) numbered i + 1. */
  function SimilarBlocks(similar: seq<Entry>): (bs: seq<seq<string>>)
    ensures |bs| == |similar|
    ensures forall i :: 0 <= i < |bs| ==> |bs[i]| == 12
  {
    seq(|similar|, i requires 0 <= i < |similar| => SimilarBlock(i + 1, similar[i]))
  }

  /** The similar-issues section: one twelve-line sub-block per similar issue, in order. */
  function SimilarSection(similar: seq<Entry>): (lines: seq<string>)
    ensures |lines| == 12 * |similar|
  {
    ConcatLength(SimilarBlocks(similar), 12);
    Concat(SimilarBlocks(similar))
  }

  /** Each similar issue's first line carries its number and its problem; its last line is blank. */
  lemma SimilarSectionLines(similar: seq<Entry>, i: nat)
    requires i < |similar|
    ensures SimilarSection(similar)[12 * i] == Numbered(i + 1) + similar[i].problemReported
    ensures SimilarSection(similar)[12 * i + 11] == ""
  {
    SimilarLine(similar, i, 0);
    SimilarLine(similar, i, 11);
    SimilarBlockEnds(similar, i);
  }

  /** Line k of the i-th similar issue (from 0) is line k of its sub-block. */
  lemma SimilarLine(similar: seq<Entry>, i: nat, k: nat)
    requires i < |similar| && k < 12
    ensures SimilarSection(similar)[12 * i + k] == SimilarBlocks(similar)[i][k]
  {
    ConcatAt(SimilarBlocks(similar), 12, i, k);
  }

  /** The i-th sub-block opens with the issue numbered i + 1 and closes with a blank line. */
  lemma SimilarBlockEnds(similar: seq<Entry>, i: nat)
    requires i < |similar|
    ensures SimilarBlocks(similar)[i][0] == Numbered(i + 1) + similar[i].problemReported
    ensures SimilarBlocks(similar)[i][11] == ""
  {
  }

  /** Every line of the similar-issues section is blank or indented. */
  lemma SimilarSectionIndented(similar: seq<Entry>, j: nat)
    requires j < |SimilarSection(similar)|
    ensures SimilarSection(similar)[j] == [] || SimilarSection(similar)[j][0] == ' '
  {
    var i := j / 12;
    var k := j % 12;
    assert j == 12 * i + k;
    SimilarLine(similar, i, k);
    SimilarBlockIndented(similar, i, k);
  }

  /** Every line of a sub-block is blank or indented. */
  lemma SimilarBlockIndented(similar: seq<Entry>, i: nat, k: nat)
    requires i < |similar| && k < 12
    ensures SimilarBlocks(similar)[i][k] == [] || SimilarBlocks(similar)[i][k][0] == ' '
  {
  }

  /** The lines of a non-sentinel cluster: the main block, then every similar issue. */
  function ClusterLines(c: Choice): seq<string> {
    MainBlock(c.main) + SimilarSection(c.similar)
  }

  /**
   * The shape of a non-sentinel block: 18 + 12k lines for k similar issues,
   * the two markers at lines 0 and 17, and the i-th similar issue numbered
   * i + 1 at line 18 + 12i.
   */
  lemma ClusterLinesShape(c: Choice)
    ensures |ClusterLines(c)| == 18 + 12 * |c.similar|
    ensures ClusterLines(c)[0] == MainMarker
    ensures ClusterLines(c)[17] == SimilarMarker
    ensures forall i :: 0 <= i < |c.similar| ==>
      ClusterLines(c)[18 + 12 * i] == Numbered(i + 1) + c.similar[i].problemReported
  {
    forall i | 0 <= i < |c.similar|
      ensures ClusterLines(c)[18 + 12 * i] == Numbered(i + 1) + c.similar[i].problemReported
    {
      NumberedLine(c, i);
    }
  }

  /** The i-th similar issue's first line sits at line 18 + 12i of the block. */
  lemma NumberedLine(c: Choice, i: nat)
    requires i < |c.similar|
    ensures ClusterLines(c)[18 + 12 * i] == Numbered(i + 1) + c.similar[i].problemReported
  {
    var sec := SimilarSection(c.similar);
    SimilarSectionLines(c.similar, i);
    assert ClusterLines(c)[18 + 12 * i] == sec[12 * i];
  }

  /** The main template's fixed lines other than the markers start with a letter or '-'. */
  lemma MainBlockPlain(e: Entry, i: nat)
    requires i < 18
    requires i != 0 && i != 1 && i != 4 && i != 15 && i != 17
    ensures MainBlock(e)[i] == [] || MainBlock(e)[i][0] != '*'
  {
    var main := MainBlock(e);
    assert ("Disposition: " + e.disposition)[0] == 'D';
    assert ("SubDisposition: " + e.subDisposition)[0] == 'S';
    assert ("Priority: " + e.priority)[0] == 'P';
    assert ("- Docket No: " + e.docketNo)[0] == '-';
    assert ("- Mail List ID: " + e.mailListId)[0] == '-';
    assert ("- Mail ID: " + e.mailId)[0] == '-';
    assert ("- Ticket ID: " + e.ticketId)[0] == '-';
    assert ("- Assigned To Dept: " + e.assignedToDept)[0] == '-';
  }

  /**
   * Only the two marker lines of a non-sentinel block are written bold,
   * unless one of the three lines copied verbatim from the data (problem,
   * body, solution: lines 1, 4 and 15) itself starts with a marker.
   */
  lemma ClusterBoldLines(c: Choice, i: nat)
    requires i < |ClusterLines(c)|
    requires i != 1 && i != 4 && i != 15
    ensures Style(ClusterLines(c)[i]).bold <==> i == 0 || i == 17
  {
    if i >= 18 {
      SimilarLinesPlain(c, i);
    } else if i == 0 || i == 17 {
      MarkerLinesBold();
    } else {
      MainLinesPlain(c, i);
    }
  }

  /** Lines of the similar-issues section are written plain. */
  lemma SimilarLinesPlain(c: Choice, i: nat)
    requires 18 <= i < |ClusterLines(c)|
    ensures !Style(ClusterLines(c)[i]).bold
  {
    var sec := SimilarSection(c.similar);
    SimilarSectionIndented(c.similar, i - 18);
    assert ClusterLines(c)[i] == sec[i - 18];
    PlainUnlessStar(sec[i - 18]);
  }

  /** The fixed main-template lines other than the markers are written plain. */
  lemma MainLinesPlain(c: Choice, i: nat)
    requires i < 18
    requires i != 0 && i != 1 && i != 4 && i != 15 && i != 17
    ensures !Style(ClusterLines(c)[i]).bold
  {
    var main := MainBlock(c.main);
    MainBlockPlain(c.main, i);
    assert ClusterLines(c)[i] == main[i];
    PlainUnlessStar(main[i]);
  }

  /** A sentinel-cluster block: the main template, "None" and a blank line. */
  function SentinelLines(e: Entry): seq<string> {
    MainBlock(e) + ["None", ""]
  }

  // ---------------------------------------------------------------- items

  /**
   * The items written for the cluster at 1-based position index out of total
   * clusters: a separator follows a non-sentinel cluster only when it is not
   * the last cluster overall, and follows every row of the sentinel cluster.
   */
  function ClusterItems(g: Group, index: nat, total: nat): (items: seq<Item>)
    ensures Separators(items)
         == if g.key == SentinelCluster then |g.rows|
            else if g.rows != [] && index < total then 1 else 0
  {
    if g.key == SentinelCluster then SentinelItems(g.rows, index, total)
    else
      match Select(g.rows)
      case None => []
      case Some(c) =>
        var body := Styled(ClusterLines(c));
        var sep := if index < total then [Separator] else [];
        StyledHasNoSeparator(ClusterLines(c));
        SeparatorsAppend(body, sep);
        OneSeparator();
        body + sep
  }

  // ------------------------------------------------------- sentinel cluster

  /** The blocks of the sentinel rows, one per row, in row order. */
  function SentinelBlocks(rows: seq<Entry>): seq<Item> {
    if rows == [] then []
    else SentinelBlocks(rows[..|rows| - 1]) + Styled(SentinelLines(rows[|rows| - 1]))
  }

  /** n separators in a row. */
  function SeparatorRun(n: nat): seq<Item> {
    seq(n, j => Separator)
  }

  /**
   * The sentinel cluster as it ends up in the document.  Every row's runs go
   * into the one paragraph created for the cluster, while each row appends a
   * separate "---" paragraph after it, so all the blocks come first and then
   * one separator per row.  The guard (index < total or the cluster has rows)
   * is evaluated inside the loop over those rows, so it always holds.
   */
  function SentinelItems(rows: seq<Entry>, index: nat, total: nat): (items: seq<Item>)
    ensures |items| == 21 * |rows|
    ensures Separators(items) == |rows|
  {
    var seps := if index < total || rows != [] then SeparatorRun(|rows|) else [];
    SentinelBlocksCount(rows);
    SeparatorRunCount(|rows|);
    SeparatorsAppend(SentinelBlocks(rows), seps);
    SentinelBlocks(rows) + seps
  }

  /** The sentinel blocks take 20 runs per row and hold no separator. */
  lemma {:induction false} SentinelBlocksCount(rows: seq<Entry>)
    ensures |SentinelBlocks(rows)| == 20 * |rows|
    ensures Separators(SentinelBlocks(rows)) == 0
  {
    if rows != [] {
      var n := |rows| - 1;
      SentinelBlocksCount(rows[..n]);
      SentinelBlockItems(rows[n]);
      SeparatorsAppend(SentinelBlocks(rows[..n]), Styled(SentinelLines(rows[n])));
    }
  }

  lemma {:induction false} SeparatorRunCount(n: nat)
    ensures Separators(SeparatorRun(n)) == n
  {
    if n > 0 {
      assert SeparatorRun(n)[..n - 1] == SeparatorRun(n - 1);
      SeparatorRunCount(n - 1);
    }
  }

  lemma OneSeparator()
    ensures Separators([Separator]) == 1
  {
    assert [Separator][..0] == [];
  }

  /** Row j's block occupies runs 20j .. 20j + 19 of the sentinel blocks. */
  lemma {:induction false} SentinelBlockOf(rows: seq<Entry>, j: nat)
    requires j < |rows|
    ensures 20 * j + 20 <= |SentinelBlocks(rows)|
    ensures SentinelBlocks(rows)[20 * j .. 20 * j + 20] == Styled(SentinelLines(rows[j]))
  {
    var n := |rows| - 1;
    var prev := SentinelBlocks(rows[..n]);
    var block := Styled(SentinelLines(rows[n]));
    assert SentinelBlocks(rows) == prev + block && |block| == 20 && |prev| == 20 * n by {
      SentinelBlocksCount(rows[..n]);
    }
    if j < n {
      SentinelBlockOf(rows[..n], j);
      assert rows[..n][j] == rows[j];
      SliceBeforeAppend(prev, block, 20 * j, 20 * j + 20);
    } else {
      SliceAfterPrefix(prev, block);
    }
  }

  /**
   * Each row of the sentinel cluster gets its own block, in row order: row
   * j's 20 runs sit at 20j, opening with the bold main label and ending with
   * the bold similar-issues label, "None" and a blank line.  One separator
   * per row follows all the blocks, after the last cluster too.
   */
  lemma SentinelShape(rows: seq<Entry>, index: nat, total: nat)
    ensures var items := SentinelItems(rows, index, total);
      && (forall j :: 0 <= j < |rows| ==> SentinelRowAt(items, rows, j))
      && (forall k :: 20 * |rows| <= k < |items| ==> items[k] == Separator)
  {
    var items := SentinelItems(rows, index, total);
    forall j | 0 <= j < |rows|
      ensures SentinelRowAt(items, rows, j)
    {
      SentinelRow(rows, index, total, j);
    }
    SentinelBlocksCount(rows);
    forall k | 20 * |rows| <= k < |items|
      ensures items[k] == Separator
    {
      assert items[k] == SeparatorRun(|rows|)[k - 20 * |rows|];
    }
  }

  /** Row j's block, with its fixed lines, at runs 20j .. 20j + 19 of items. */
  ghost predicate SentinelRowAt(items: seq<Item>, rows: seq<Entry>, j: nat) {
    && j < |rows|
    && 20 * j + 20 <= |items|
    && items[20 * j .. 20 * j + 20] == Styled(SentinelLines(rows[j]))
    && items[20 * j] == Line("Main Issue:", true)
    && items[20 * j + 17] == Line("Similar issues:", true)
    && items[20 * j + 18] == Line("None", false)
    && items[20 * j + 19] == Line("", false)
  }

  /** Row j of the sentinel cluster is written as its own block at runs 20j .. 20j + 19. */
  lemma SentinelRow(rows: seq<Entry>, index: nat, total: nat, j: nat)
    requires j < |rows|
    ensures SentinelRowAt(SentinelItems(rows, index, total), rows, j)
  {
    var blocks := SentinelBlocks(rows);
    var items := SentinelItems(rows, index, total);
    var block := Styled(SentinelLines(rows[j]));
    assert 20 * j + 20 <= |items| && items[20 * j .. 20 * j + 20] == block by {
      SentinelBlockOf(rows, j);
      assert items == blocks + items[|blocks|..];
      SliceBeforeAppend(blocks, items[|blocks|..], 20 * j, 20 * j + 20);
    }
    SentinelBlockItems(rows[j]);
    BlockAt(items, block, 20 * j);
  }

  /** A block found at offset o: its fixed lines are found at their offsets past o. */
  lemma BlockAt(items: seq<Item>, block: seq<Item>, o: nat)
    requires |block| == 20 && o + 20 <= |items|
    requires items[o .. o + 20] == block
    ensures items[o] == block[0] && items[o + 17] == block[17]
    ensures items[o + 18] == block[18] && items[o + 19] == block[19]
  {
    assert items[o] == items[o .. o + 20][0];
    assert items[o + 17] == items[o .. o + 20][17];
    assert items[o + 18] == items[o .. o + 20][18];
    assert items[o + 19] == items[o .. o + 20][19];
  }

  /** How many separators a stretch of items holds. */
  function Separators(items: seq<Item>): nat {
    if items == [] then 0
    else Separators(items[..|items| - 1]) + (if items[|items| - 1].Separator? then 1 else 0)
  }

  lemma {:induction false} SeparatorsAppend(a: seq<Item>, b: seq<Item>)
    ensures Separators(a + b) == Separators(a) + Separators(b)
    decreases |b|
  {
    if b == [] {
      assert a + b == a;
    } else {
      assert (a + b)[..|a + b| - 1] == a + b[..|b| - 1];
      SeparatorsAppend(a, b[..|b| - 1]);
    }
  }

  lemma {:induction false} StyledHasNoSeparator(lines: seq<string>)
    ensures Separators(Styled(lines)) == 0
    decreases |lines|
  {
    if lines != [] {
      var items := Styled(lines);
      assert items[..|lines| - 1] == Styled(lines[..|lines| - 1]);
      StyledHasNoSeparator(lines[..|lines| - 1]);
    }
  }

  /** One sentinel row's block: 20 styled lines ending with the marker, "None" and a blank. */
  lemma SentinelBlockItems(e: Entry)
    ensures |Styled(SentinelLines(e))| == 20
    ensures Separators(Styled(SentinelLines(e))) == 0
    ensures Styled(SentinelLines(e))[0] == Line("Main Issue:", true)
    ensures Styled(SentinelLines(e))[17] == Line("Similar issues:", true)
    ensures Styled(SentinelLines(e))[18] == Line("None", false)
    ensures Styled(SentinelLines(e))[19] == Line("", false)
  {
    var lines := SentinelLines(e);
    StyledHasNoSeparator(lines);
    StyledAt(lines, 0);
    StyledAt(lines, 17);
    StyledAt(lines, 18);
    StyledAt(lines, 19);
    PlainUnlessStar("None");
    PlainUnlessStar("");
    MarkerLinesBold();
  }

  /**
   * A non-empty non-sentinel cluster writes its 18 + 12k styled lines and
   * then one separator exactly when it is not the last cluster overall.
   */
  lemma RegularClusterShape(g: Group, index: nat, total: nat)
    requires g.key != SentinelCluster
    requires g.rows != []
    ensures var items := ClusterItems(g, index, total);
      && |items| == 18 + 12 * |Select(g.rows).value.similar| + (if index < total then 1 else 0)
      && Separators(items) == (if index < total then 1 else 0)
      && (items[|items| - 1] == Separator <==> index < total)
  {
    var c := Select(g.rows).value;
    var body := Styled(ClusterLines(c));
    if index >= total {
      assert ClusterItems(g, index, total) == body;
      StyledAt(ClusterLines(c), |body| - 1);
    }
  }

  /**
   * A non-empty non-sentinel cluster writes the choice of its main issue and
   * similar issues: its first runs are that choice's lines under the bold
   * rule, so run 1 is the main issue's problem, run 4 its truncated body,
   * run 15 its truncated solution, and run 18 + 12i the numbered problem of
   * the i-th similar issue.
   */
  lemma RegularClusterItems(g: Group, index: nat, total: nat)
    requires g.key != SentinelCluster
    requires g.rows != []
    ensures var c := Select(g.rows).value;
      var items := ClusterItems(g, index, total);
      && 18 + 12 * |c.similar| <= |items|
      && items[..18 + 12 * |c.similar|] == Styled(ClusterLines(c))
      && items[1] == Style(c.main.problemReported)
      && items[4] == Style(Truncate(c.main.processedBody))
      && items[15] == Style(Truncate(c.main.solution))
      && forall i :: 0 <= i < |c.similar| ==>
           items[18 + 12 * i] == Style(Numbered(i + 1) + c.similar[i].problemReported)
  {
    var c := Select(g.rows).value;
    var items := ClusterItems(g, index, total);
    RegularClusterBody(g, index, total);
    ChoiceRuns(items, c);
  }

  /**
   * Items that begin with the styled lines of a choice carry its main issue's
   * problem, body and solution at runs 1, 4 and 15, and the i-th similar
   * issue's numbered problem at run 18 + 12i.
   */
  lemma ChoiceRuns(items: seq<Item>, c: Choice)
    requires |ClusterLines(c)| <= |items| && items[..|ClusterLines(c)|] == Styled(ClusterLines(c))
    ensures |ClusterLines(c)| == 18 + 12 * |c.similar|
    ensures items[1] == Style(c.main.problemReported)
    ensures items[4] == Style(Truncate(c.main.processedBody))
    ensures items[15] == Style(Truncate(c.main.solution))
    ensures forall i :: 0 <= i < |c.similar| ==>
      items[18 + 12 * i] == Style(Numbered(i + 1) + c.similar[i].problemReported)
  {
    MainRuns(items, c);
    SimilarRuns(items, c);
  }

  /** Runs 1, 4 and 15 carry the main issue's problem, truncated body and truncated solution. */
  lemma MainRuns(items: seq<Item>, c: Choice)
    requires |ClusterLines(c)| <= |items| && items[..|ClusterLines(c)|] == Styled(ClusterLines(c))
    ensures items[1] == Style(c.main.problemReported)
    ensures items[4] == Style(Truncate(c.main.processedBody))
    ensures items[15] == Style(Truncate(c.main.solution))
  {
    MainBlockFields(c.main);
    MainLineItem(items, c, 1);
    MainLineItem(items, c, 4);
    MainLineItem(items, c, 15);
  }

  /** The main template's data lines: the problem at 1, the truncated body at 4, the truncated solution at 15. */
  lemma MainBlockFields(e: Entry)
    ensures MainBlock(e)[1] == e.problemReported
    ensures MainBlock(e)[4] == Truncate(e.processedBody)
    ensures MainBlock(e)[15] == Truncate(e.solution)
  {
  }

  /** Run 18 + 12i carries the numbered problem of the i-th similar issue. */
  lemma SimilarRuns(items: seq<Item>, c: Choice)
    requires |ClusterLines(c)| <= |items| && items[..|ClusterLines(c)|] == Styled(ClusterLines(c))
    ensures |ClusterLines(c)| == 18 + 12 * |c.similar|
    ensures forall i :: 0 <= i < |c.similar| ==>
      items[18 + 12 * i] == Style(Numbered(i + 1) + c.similar[i].problemReported)
  {
    var lines := ClusterLines(c);
    ClusterLinesShape(c);
    forall i | 0 <= i < |c.similar|
      ensures items[18 + 12 * i] == Style(Numbered(i + 1) + c.similar[i].problemReported)
    {
      StyledItem(items, lines, 18 + 12 * i);
    }
  }

  /**
   * The solved-row example carried through to the written runs: rows A
   * (unsolved) then B (solved, "Fixed") of cluster 7 are written as 30 runs,
   * plus a separator unless the cluster is the last one; B's problem is
   * run 1, its solution run 15, and A is listed as similar issue 1 at run 18.
   */
  lemma SolvedRowRendered(a: Entry, b: Entry, index: nat, total: nat)
    requires a.cluster == 7 && b.cluster == 7
    requires a.solution == "" && b.solution == "Fixed"
    ensures var items := ClusterItems(Group(7, [a, b]), index, total);
      && |items| == 30 + (if index < total then 1 else 0)
      && items[1] == Style(b.problemReported)
      && items[15] == Style("Fixed")
      && items[18] == Style(Numbered(1) + a.problemReported)
  {
    var g := Group(7, [a, b]);
    SolvedRowPromoted(a, b);
    RegularClusterShape(g, index, total);
    RegularClusterItems(g, index, total);
  }

  /** The runs of a non-empty non-sentinel cluster begin with its styled lines. */
  lemma RegularClusterBody(g: Group, index: nat, total: nat)
    requires g.key != SentinelCluster
    requires g.rows != []
    ensures var lines := ClusterLines(Select(g.rows).value);
      var items := ClusterItems(g, index, total);
      |lines| <= |items| && items[..|lines|] == Styled(lines)
  {
    var lines := ClusterLines(Select(g.rows).value);
    var sep: seq<Item> := if index < total then [Separator] else [];
    assert ClusterItems(g, index, total) == Styled(lines) + sep;
  }

  /** Run k of items that begin with the styled lines is line k under the bold rule. */
  lemma StyledItem(items: seq<Item>, lines: seq<string>, k: nat)
    requires k < |lines| <= |items| && items[..|lines|] == Styled(lines)
    ensures items[k] == Style(lines[k])
  {
    assert items[k] == items[..|lines|][k];
    StyledAt(lines, k);
  }

  /** Run k (below 18) of a regular cluster's items is line k of its main template. */
  lemma MainLineItem(items: seq<Item>, c: Choice, k: nat)
    requires k < 18
    requires |ClusterLines(c)| <= |items| && items[..|ClusterLines(c)|] == Styled(ClusterLines(c))
    ensures items[k] == Style(MainBlock(c.main)[k])
  {
    var main := MainBlock(c.main);
    assert ClusterLines(c)[k] == main[k];
    StyledItem(items, ClusterLines(c), k);
  }

  /**
   * A cluster with rows ends with a separator exactly when it is not the last
   * cluster overall or it is the sentinel cluster.
   */
  lemma ClusterEndsWithSeparator(g: Group, index: nat, total: nat)
    requires g.rows != []
    ensures var items := ClusterItems(g, index, total);
      && items != []
      && (items[|items| - 1] == Separator <==> index < total || g.key == SentinelCluster)
  {
    if g.key == SentinelCluster {
      var items := SentinelItems(g.rows, index, total);
      SentinelShape(g.rows, index, total);
      assert 20 * |g.rows| <= |items| - 1;
    } else {
      RegularClusterShape(g, index, total);
    }
  }
}

=== FILE: selection.dfy ===
/**
 * Choosing a cluster's main issue and its similar issues (clusters other
 * than the sentinel one).
 */
module Selection {
  import opened Wrappers
  import opened Entries

  /** The main issue of a cluster and the issues listed under it. */
  datatype Choice = Choice(main: Entry, similar: seq<Entry>)

  /** The position of the first row with a non-empty solution, if any. */
  function FirstSolved(rows: seq<Entry>): (r: Option<nat>)
    ensures r.Some? ==>
      && r.value < |rows|
      && HasSolution(rows[r.value])
      && forall j :: 0 <= j < r.value ==> !HasSolution(rows[j])
    ensures r.None? ==> forall j :: 0 <= j < |rows| ==> !HasSolution(rows[j])
  {
    if rows == [] then None
    else if HasSolution(rows[0]) then Some(0)
    else
      match FirstSolved(rows[1..])
      case None => None
      case Some(i) => Some(i + 1)
  }

  /** The rows that are not equal (by the record's equals) to main, in order. */
  function Without(rows: seq<Entry>, main: Entry): seq<Entry> {
    if rows == [] then []
    else (if SameEntry(rows[0], main) then [] else [rows[0]]) + Without(rows[1..], main)
  }

  /** a can be obtained from b by deleting elements, so b's order is kept (greedy matching). */
  predicate IsSubsequence(a: seq<Entry>, b: seq<Entry>)
    decreases |b|
  {
    if b == [] then a == []
    else if a != [] && a[0] == b[0] then IsSubsequence(a[1..], b[1..])
    else IsSubsequence(a, b[1..])
  }

  /**
   * Without drops every copy of main and nothing else, and keeps the order of
   * the rows it keeps.
   */
  lemma WithoutSpec(rows: seq<Entry>, main: Entry)
    ensures multiset(Without(rows, main)) == multiset(rows)[main := 0]
    ensures IsSubsequence(Without(rows, main), rows)
  {
    WithoutCounts(rows, main);
    WithoutKeepsOrder(rows, main);
  }

  /** Without removes exactly the copies of main. */
  lemma {:induction false} WithoutCounts(rows: seq<Entry>, main: Entry)
    ensures multiset(Without(rows, main)) == multiset(rows)[main := 0]
  {
    if rows == [] {
      assert multiset(rows)[main := 0] == multiset{};
    } else {
      var rest := Without(rows[1..], main);
      WithoutCounts(rows[1..], main);
      SameEntryIsEquality(rows[0], main);
      assert rows == [rows[0]] + rows[1..];
      assert multiset(rows) == multiset{rows[0]} + multiset(rows[1..]);
      if rows[0] != main {
        assert multiset([rows[0]] + rest) == multiset{rows[0]} + multiset(rest);
      }
    }
  }

  /** Without keeps the rows it keeps in their original order. */
  lemma {:induction false} WithoutKeepsOrder(rows: seq<Entry>, main: Entry)
    ensures IsSubsequence(Without(rows, main), rows)
  {
    if rows != [] {
      var rest := Without(rows[1..], main);
      WithoutKeepsOrder(rows[1..], main);
      if SameEntry(rows[0], main) {
        assert Without(rows, main) == rest;
        SkipHead(rest, rows);
      } else {
        var w := [rows[0]] + rest;
        assert Without(rows, main) == w;
        assert w[1..] == rest;
      }
    }
  }

  /** A subsequence of b's tail is a subsequence of b. */
  lemma {:induction false} SkipHead(a: seq<Entry>, b: seq<Entry>)
    requires b != []
    requires IsSubsequence(a, b[1..])
    ensures IsSubsequence(a, b)
    decreases |b|, 0
  {
    if a != [] && a[0] == b[0] {
      SubsequenceTail(a, b[1..]);
    }
  }

  /** Dropping the head of a subsequence keeps it a subsequence. */
  lemma {:induction false} SubsequenceTail(a: seq<Entry>, b: seq<Entry>)
    requires a != []
    requires IsSubsequence(a, b)
    ensures IsSubsequence(a[1..], b)
    decreases |b|, 1
  {
    if b != [] {
      if a[0] == b[0] {
        SkipHead(a[1..], b);
      } else {
        SubsequenceTail(a, b[1..]);
        SkipHead(a[1..], b);
      }
    }
  }

  /**
   * The selection policy.  The main issue is the first row with a solution;
   * its similar issues are all rows not equal to it, so every duplicate of
   * the main issue is dropped as well.  When no row has a solution the first
   * row is the main issue and the rest follow.  An empty cluster is skipped.
   */
  function Select(rows: seq<Entry>): (r: Option<Choice>)
    ensures r.None? <==> rows == []
    ensures r.Some? && (exists j :: 0 <= j < |rows| && HasSolution(rows[j])) ==>
      && HasSolution(r.value.main)
      && (exists i :: 0 <= i < |rows| && rows[i] == r.value.main
                      && forall j :: 0 <= j < i ==> !HasSolution(rows[j]))
      && multiset(r.value.similar) == multiset(rows)[r.value.main := 0]
      && IsSubsequence(r.value.similar, rows)
    ensures r.Some? && (forall j :: 0 <= j < |rows| ==> !HasSolution(rows[j])) ==>
      r.value.main == rows[0] && r.value.similar == rows[1..]
  {
    match FirstSolved(rows)
    case Some(i) =>
      WithoutSpec(rows, rows[i]);
      Some(Choice(rows[i], Without(rows, rows[i])))
    case None =>
      if rows == [] then None else Some(Choice(rows[0], rows[1..]))
  }

  /**
   * With a solved row, the main issue never reappears among the similar
   * issues, and each of its copies shortens the list by one.
   */
  lemma SolvedMainNotAmongSimilar(rows: seq<Entry>)
    requires rows != []
    requires exists j :: 0 <= j < |rows| && HasSolution(rows[j])
    ensures Select(rows).value.main !in Select(rows).value.similar
    ensures |Select(rows).value.similar| == |rows| - multiset(rows)[Select(rows).value.main]
  {
    var c := Select(rows).value;
    assert multiset(c.similar)[c.main] == 0;
    assert |multiset(rows)| == |multiset(rows)[c.main := 0]| + multiset(rows)[c.main];
  }

  /**
   * Without a solved row, the first row is the main issue and every other
   * row follows, so there are exactly n - 1 similar issues, copies of the
   * first row included.
   */
  lemma UnsolvedListsEveryOtherRow(rows: seq<Entry>)
    requires rows != []
    requires forall j :: 0 <= j < |rows| ==> !HasSolution(rows[j])
    ensures |Select(rows).value.similar| == |rows| - 1
    ensures forall j :: 1 <= j < |rows| ==> rows[j] in Select(rows).value.similar
  {
  }

  /**
   * Duplicates of the main issue are treated differently by the two
   * branches: two identical solved rows yield no similar issue, two
   * identical unsolved rows yield one.
   */
  lemma DuplicatesDependOnSolution(e: Entry)
    ensures HasSolution(e) ==> Select([e, e]) == Some(Choice(e, []))
    ensures !HasSolution(e) ==> Select([e, e]) == Some(Choice(e, [e]))
  {
    assert [e, e][1..] == [e];
    if HasSolution(e) {
      assert FirstSolved([e, e]) == Some(0);
      assert Without([e], e) == [];
    }
  }

  /**
   * A cluster with one unsolved row A followed by a row B solved "Fixed":
   * B is the main issue and A its only similar issue.
   */
  lemma SolvedRowPromoted(a: Entry, b: Entry)
    requires a.cluster == 7 && b.cluster == 7
    requires a.solution == "" && b.solution == "Fixed"
    ensures Select([a, b]) == Some(Choice(b, [a]))
  {
    assert [a, b][1..] == [b];
    assert FirstSolved([a, b]) == Some(1);
    assert !SameEntry(a, b);
    assert Without([b], b) == [];
    assert Without([a, b], b) == [a];
  }
}

=== FILE: seqs.dfy ===
/**
 * Generic facts about sequences that the report's stages share: joining
 * equal-width blocks, slicing a concatenation, membership in a
 * concatenation, and mapping over a sequence together with each element's
 * 1-based position.
 */
module Seqs {

  // ------------------------------------------------------------- joining

  /** Sequences joined end to end. */
  function Concat<T>(bs: seq<seq<T>>): seq<T> {
    if bs == [] then [] else Concat(bs[..|bs| - 1]) + bs[|bs| - 1]
  }

  /** Blocks of width w joined end to end take w elements each. */
  lemma {:induction false} ConcatLength<T>(bs: seq<seq<T>>, w: nat)
    requires forall i :: 0 <= i < |bs| ==> |bs[i]| == w
    ensures |Concat(bs)| == w * |bs|
    decreases |bs|
  {
    if bs != [] {
      var n := |bs| - 1;
      ConcatLength(bs[..n], w);
      MulSucc(w, n);
    }
  }

  /** Element k of the i-th block of width w sits at w * i + k of the joined sequence. */
  lemma {:induction false} ConcatAt<T>(bs: seq<seq<T>>, w: nat, i: nat, k: nat)
    requires forall j :: 0 <= j < |bs| ==> |bs[j]| == w
    requires i < |bs| && k < w
    ensures w * i + k < |Concat(bs)| && Concat(bs)[w * i + k] == bs[i][k]
    decreases |bs|
  {
    var n := |bs| - 1;
    var init := bs[..n];
    ConcatLength(init, w);
    MulSucc(w, n);
    if i < n {
      ConcatAt(init, w, i, k);
    } else {
      assert i == n;
    }
  }

  /** One more block of width w adds w elements. */
  lemma MulSucc(w: nat, n: nat)
    ensures w * (n + 1) == w * n + w
  {
  }

  // ------------------------------------------------------------- slicing

  /** A slice that lies inside the first part of a concatenation is a slice of that part. */
  lemma SliceBeforeAppend<T>(prev: seq<T>, more: seq<T>, lo: nat, hi: nat)
    requires lo <= hi <= |prev|
    ensures (prev + more)[lo .. hi] == prev[lo .. hi]
  {
  }

  /** The part of a concatenation after its first part is the second part. */
  lemma SliceAfterPrefix<T>(prev: seq<T>, more: seq<T>)
    ensures (prev + more)[|prev| .. |prev| + |more|] == more
  {
  }

  /** An element of the second part is an element of the concatenation. */
  lemma InSecondPart<T>(a: seq<T>, b: seq<T>, x: T)
    requires x in b
    ensures x in a + b
  {
  }

  // ----------------------------------------------------------- positions

  /** render applied to each of the first k elements of xs, with its 1-based position and |xs|. */
  function Positioned<X, Y>(xs: seq<X>, k: nat, render: (X, nat, nat) -> Y): (ys: seq<Y>)
    requires k <= |xs|
    ensures |ys| == k
  {
    if k == 0 then [] else Positioned(xs, k - 1, render) + [render(xs[k - 1], k, |xs|)]
  }

  /** Element i (from 0) is rendered at 1-based position i + 1 out of |xs|. */
  lemma {:induction false} PositionedAt<X, Y>(xs: seq<X>, k: nat, render: (X, nat, nat) -> Y, i: nat)
    requires i < k <= |xs|
    ensures Positioned(xs, k, render)[i] == render(xs[i], i + 1, |xs|)
  {
    var prev := Positioned(xs, k - 1, render);
    if i < k - 1 {
      PositionedAt(xs, k - 1, render, i);
      assert (prev + [render(xs[k - 1], k, |xs|)])[i] == prev[i];
    }
  }
}

=== FILE: text.dfy ===
/**
 * The string operations the report generator borrows from java.lang.String:
 * trim, startsWith, replace (all occurrences), length-capped truncation and
 * decimal rendering of a counter.  Characters are Dafny chars; Java counts
 * UTF-16 code units, a difference that only matters for text outside the
 * Basic Multilingual Plane.
 */
module Text {

  // ---------------------------------------------------------------- trim

  /** String.trim strips every character whose code is at most U+0020. */
  predicate IsTrimmable(c: char) {
    c <= ' '
  }

  /** Index of the first character that trim keeps (|s| when there is none). */
  function LeadingSpace(s: string): (lo: nat)
    ensures lo <= |s|
    ensures forall k :: 0 <= k < lo ==> IsTrimmable(s[k])
    ensures lo < |s| ==> !IsTrimmable(s[lo])
  {
    if |s| == 0 || !IsTrimmable(s[0]) then 0
    else
      var rest := LeadingSpace(s[1..]);
      assert forall k :: 1 <= k < 1 + rest ==> s[k] == s[1..][k - 1];
      1 + rest
  }

  /** End (exclusive) of the text trim keeps, given that it starts at lo. */
  function TrailingSpace(s: string, lo: nat): (hi: nat)
    requires lo <= |s|
    ensures lo <= hi <= |s|
    ensures forall k :: hi <= k < |s| ==> IsTrimmable(s[k])
    ensures hi > lo ==> !IsTrimmable(s[hi - 1])
    decreases |s|
  {
    if |s| == lo || !IsTrimmable(s[|s| - 1]) then |s|
    else
      var hi := TrailingSpace(s[..|s| - 1], lo);
      assert forall k :: hi <= k < |s| - 1 ==> s[k] == s[..|s| - 1][k];
      hi
  }

  /**
   * r is s with a run of trimmable characters removed from each end, and r
   * itself neither starts nor ends with one.
   */
  ghost predicate IsTrimOf(r: string, s: string) {
    && (exists lo, hi {:trigger s[lo..hi]} ::
          && 0 <= lo <= hi <= |s|
          && r == s[lo..hi]
          && (forall k :: 0 <= k < lo ==> IsTrimmable(s[k]))
          && (forall k :: hi <= k < |s| ==> IsTrimmable(s[k])))
    && (r == [] || (!IsTrimmable(r[0]) && !IsTrimmable(r[|r| - 1])))
  }

  /** Java's String.trim. */
  function Trim(s: string): (r: string)
    ensures |r| <= |s|
  {
    var lo := LeadingSpace(s);
    s[lo..TrailingSpace(s, lo)]
  }

  /** Trim removes whitespace runs from both ends and nothing else. */
  lemma TrimRemovesEnds(s: string)
    ensures IsTrimOf(Trim(s), s)
  {
    var lo := LeadingSpace(s);
    var hi := TrailingSpace(s, lo);
    assert s[lo..hi] == Trim(s);
  }

  // ---------------------------------------------------------- startsWith

  /** Java's String.startsWith. */
  predicate StartsWith(s: string, prefix: string) {
    |prefix| <= |s| && s[..|prefix|] == prefix
  }

  // ------------------------------------------------------------- replace

  /**
   * Java's String.replace(CharSequence, CharSequence): scans left to right
   * and replaces every non-overlapping occurrence of pat by rep.
   */
  function ReplaceAll(s: string, pat: string, rep: string): string
    requires |pat| > 0
    decreases |s|
  {
    if |s| < |pat| then s
    else if s[..|pat|] == pat then rep + ReplaceAll(s[|pat|..], pat, rep)
    else [s[0]] + ReplaceAll(s[1..], pat, rep)
  }

  /** pat occurs in s starting at index i. */
  predicate OccursAt(pat: string, s: string, i: nat) {
    i + |pat| <= |s| && s[i..i + |pat|] == pat
  }

  /** pat occurs in s at some position. */
  ghost predicate Occurs(pat: string, s: string) {
    exists i: nat :: OccursAt(pat, s, i)
  }

  /** Replacing a pattern that does not occur changes nothing. */
  lemma {:induction false} ReplaceAbsent(s: string, pat: string, rep: string)
    requires |pat| > 0
    requires !Occurs(pat, s)
    ensures ReplaceAll(s, pat, rep) == s
    decreases |s|
  {
    if |s| >= |pat| {
      assert !OccursAt(pat, s, 0);
      forall i: nat | OccursAt(pat, s[1..], i)
        ensures OccursAt(pat, s, i + 1)
      {
        assert s[1..][i..i + |pat|] == s[i + 1..i + 1 + |pat|];
      }
      ReplaceAbsent(s[1..], pat, rep);
    }
  }

  /**
   * Text free of pat's first character passes through unchanged and the
   * replacement continues on what follows it.
   */
  lemma {:induction false} ReplaceAfterPlain(a: string, b: string, pat: string, rep: string)
    requires |pat| > 0
    requires pat[0] !in a
    ensures ReplaceAll(a + b, pat, rep) == a + ReplaceAll(b, pat, rep)
    decreases |a|
  {
    if a != [] {
      var s := a + b;
      assert s[0] == a[0];
      if |s| >= |pat| {
        assert s[..|pat|][0] != pat[0];
        assert s[1..] == a[1..] + b;
        assert ReplaceAll(s, pat, rep) == [a[0]] + ReplaceAll(a[1..] + b, pat, rep);
        ReplaceAfterPlain(a[1..], b, pat, rep);
        assert [a[0]] + (a[1..] + ReplaceAll(b, pat, rep)) == a + ReplaceAll(b, pat, rep);
      } else {
        assert ReplaceAll(s, pat, rep) == s;
        assert ReplaceAll(b, pat, rep) == b;
      }
    } else {
      assert a + b == b;
    }
  }

  /** An occurrence of pat at the very front is replaced and scanning resumes after it. */
  lemma ReplaceAtFront(b: string, pat: string, rep: string)
    requires |pat| > 0
    ensures ReplaceAll(pat + b, pat, rep) == rep + ReplaceAll(b, pat, rep)
  {
    var s := pat + b;
    assert s[..|pat|] == pat;
    assert s[|pat|..] == b;
  }

  /** Removing every "**" leaves no two adjacent asterisks behind. */
  function RemoveStars(s: string): (r: string)
    ensures NoDoubleStar(r)
    ensures |r| <= |s|
    ensures |s| > 0 && s[0] != '*' ==> |r| > 0 && r[0] == s[0]
    decreases |s|
  {
    if |s| < 2 then s
    else if s[..2] == "**" then RemoveStars(s[2..])
    else
      var rest := RemoveStars(s[1..]);
      assert s[0] == '*' ==> s[1] != '*';
      [s[0]] + rest
  }

  /** No "**" anywhere in r. */
  predicate NoDoubleStar(r: string) {
    forall i :: 0 <= i < |r| - 1 ==> !(r[i] == '*' && r[i + 1] == '*')
  }

  /** RemoveStars is exactly Java's line.replace("**", ""). */
  lemma {:induction false} RemoveStarsIsReplace(s: string)
    ensures RemoveStars(s) == ReplaceAll(s, "**", "")
    decreases |s|
  {
    if |s| >= 2 {
      if s[..2] == "**" {
        RemoveStarsIsReplace(s[2..]);
      } else {
        RemoveStarsIsReplace(s[1..]);
      }
    }
  }

  // ------------------------------------------------------------ truncate

  /** Body and solution text longer than this many characters is cut. */
  const TruncationLimit: nat := 10000

  /** Appended after the kept prefix of a cut text. */
  const TruncationSuffix: string := "... [Truncated]"

  /** The cap applied to every body and solution before it is written. */
  function Truncate(s: string): (r: string)
    ensures |s| <= TruncationLimit ==> r == s
    ensures |s| > TruncationLimit ==>
      && |r| == TruncationLimit + |TruncationSuffix|
      && r[..TruncationLimit] == s[..TruncationLimit]
      && r[TruncationLimit..] == TruncationSuffix
  {
    if |s| > TruncationLimit then s[..TruncationLimit] + TruncationSuffix else s
  }

  /** A truncated text is never longer than 10015 characters. */
  lemma TruncateBound(s: string)
    ensures |Truncate(s)| <= 10015
    ensures |s| > TruncationLimit ==> |Truncate(s)| == 10015
  {
  }

  // -------------------------------------------------------------- digits

  /** The decimal digit character for d. */
  function Digit(d: nat): (c: char)
    requires d < 10
    ensures '0' <= c <= '9'
    ensures c as int - '0' as int == d
  {
    (d + '0' as int) as char
  }

  predicate IsDigit(c: char) {
    '0' <= c <= '9'
  }

  predicate AllDigits(s: string) {
    forall i :: 0 <= i < |s| ==> IsDigit(s[i])
  }

  /** Integer.toString of a non-negative value: digits, no leading zero. */
  function NatToDecimal(n: nat): (r: string)
    ensures |r| >= 1
    ensures AllDigits(r)
    ensures r[0] == '0' ==> n == 0 && r == "0"
  {
    if n < 10 then [Digit(n)]
    else
      var high := NatToDecimal(n / 10);
      assert high[0] != '0';
      high + [Digit(n % 10)]
  }

  /** The value a string of decimal digits denotes. */
  function DecimalValue(s: string): nat
    requires AllDigits(s)
  {
    if s == [] then 0
    else DecimalValue(s[..|s| - 1]) * 10 + (s[|s| - 1] as int - '0' as int)
  }

  /** Reading back a rendered counter gives the counter. */
  lemma {:induction false} DecimalRoundTrip(n: nat)
    ensures DecimalValue(NatToDecimal(n)) == n
  {
    if n >= 10 {
      var r := NatToDecimal(n);
      assert r[..|r| - 1] == NatToDecimal(n / 10);
      DecimalRoundTrip(n / 10);
    }
  }
}

=== FILE: wrappers.dfy ===
/** Small failure-carrying datatypes shared by the report pipeline. */
module Wrappers {

  /** A value that may be absent; models a Java reference that may be null. */
  datatype Option<+T> = None | Some(value: T)

  /** The outcome of a step that may fail with an error of type E. */
  datatype Result<+T, +E> = Ok(value: T) | Err(error: E)
}

=== FILE: writer.dfy ===
/**
 * The document writer: clusters are written in ascending key order into
 * one open document at a time, and a new document is started before every
 * cluster whose 1-based position is 5001, 10001, ...  Each document is
 * modelled by the path it is written to and the items written into it;
 * the footer with its page-number field, fonts and the file writes
 * themselves are not modelled.
 */
module Writer {
  import opened Wrappers
  import opened Text
  import opened Entries
  import opened Ingest
  import opened Grouping
  import opened Render
  import opened Seqs

  /** A written document: where it goes and what it holds. */
  datatype DocFile = DocFile(path: string, items: seq<Item>)

  // ------------------------------------------------------------ schedule
  //
  // At most 5000 clusters are written into one document (the source's
  // maxClustersPerFile, line 188).  The bound is written as the literal 5000 throughout,
  // so that every product with it stays linear for the solver.

  /**
   * The 1-based number of the document that the cluster at 1-based position
   * c is written into, which is the ceiling of c / 5000; for c = 0 it is 1,
   * the document open before any cluster.
   */
  function FileOf(c: nat): (f: nat)
    ensures f >= 1
    ensures c >= 1 ==> (f - 1) * 5000 < c <= f * 5000
    ensures c == 0 ==> f == 1
  {
    if c == 0 then 1 else (c - 1) / 5000 + 1
  }

  /** The source's guard for closing the open document before cluster c. */
  predicate StartsNewFile(c: nat) {
    c % 5000 == 1 && c > 1
  }

  /** A document is closed before cluster c exactly when c belongs to the next document. */
  lemma StartsNewFileExactly(c: nat)
    requires c >= 1
    ensures StartsNewFile(c) <==> FileOf(c) == FileOf(c - 1) + 1
    ensures !StartsNewFile(c) ==> FileOf(c) == FileOf(c - 1)
  {
  }

  /** The 1-based position of the first cluster of document f. */
  function FirstOf(f: nat): nat
    requires f >= 1
  {
    (f - 1) * 5000 + 1
  }

  /** One past the 1-based position of the last cluster of document f, out of n clusters. */
  function EndOf(f: nat, n: nat): nat
    requires f >= 1
  {
    if f * 5000 < n then f * 5000 + 1 else n + 1
  }

  /** Cluster c (of n) lies in the range of document FileOf(c) and of no other. */
  lemma ClusterLandsInOneFile(c: nat, n: nat, f: nat)
    requires 1 <= c <= n
    requires f >= 1
    ensures FirstOf(f) <= c < EndOf(f, n) <==> f == FileOf(c)
  {
    var g := FileOf(c);
    if f < g {
      assert f * 5000 <= (g - 1) * 5000;
    } else if f > g {
      assert (f - 1) * 5000 >= g * 5000;
    }
  }

  /** Only a document count of one keeps the unmodified output path. */
  lemma SingleFileExactly(n: nat)
    ensures FileOf(n) == 1 <==> n <= 5000
  {
  }

  /** 12000 clusters make three documents of 5000, 5000 and 2000 clusters. */
  lemma TwelveThousandClusters()
    ensures FileOf(12000) == 3
    ensures FirstOf(1) == 1 && EndOf(1, 12000) == 5001
    ensures FirstOf(2) == 5001 && EndOf(2, 12000) == 10001
    ensures FirstOf(3) == 10001 && EndOf(3, 12000) == 12001
  {
  }

  // --------------------------------------------------------------- paths

  /** A path of the form stem + ".docx" whose stem holds no '.'. */
  predicate IsDocxPath(base: string) {
    |base| >= 5 && base[|base| - 5..] == ".docx" && '.' !in base[..|base| - 5]
  }

  /**
   * The path of document n when documents are numbered: every ".docx" becomes
   * "_n.docx".  A plain stem.docx path gets the number before the extension;
   * a path without ".docx" is left as it is, so every numbered document would
   * be written to that same path.
   */
  function SplitPath(base: string, n: nat): (p: string)
    ensures IsDocxPath(base) ==> p == base[..|base| - 5] + "_" + NatToDecimal(n) + ".docx"
    ensures !Occurs(".docx", base) ==> p == base
  {
    var rep := "_" + NatToDecimal(n) + ".docx";
    ReplaceInPath(base, rep);
    assert |base| >= 5 ==>
      base[..|base| - 5] + rep == base[..|base| - 5] + "_" + NatToDecimal(n) + ".docx";
    ReplaceAll(base, ".docx", rep)
  }

  /** What replacing ".docx" does to a plain stem.docx path and to a path without it. */
  lemma ReplaceInPath(base: string, rep: string)
    ensures IsDocxPath(base) ==> ReplaceAll(base, ".docx", rep) == base[..|base| - 5] + rep
    ensures !Occurs(".docx", base) ==> ReplaceAll(base, ".docx", rep) == base
  {
    if IsDocxPath(base) {
      var stem := base[..|base| - 5];
      assert base == stem + ".docx";
      ReplaceAfterPlain(stem, ".docx", ".docx", rep);
      assert ".docx" == ".docx" + [];
      ReplaceAtFront([], ".docx", rep);
      assert ReplaceAll([], ".docx", rep) == [];
      assert rep + [] == rep;
    }
    if !Occurs(".docx", base) {
      ReplaceAbsent(base, ".docx", rep);
    }
  }

  /**
   * The path of the last of count documents: numbered like the others, except
   * that a plain stem.docx path is kept exactly when it is the only document.
   */
  function FinalPath(base: string, count: nat): (p: string)
    ensures count != 1 ==> p == SplitPath(base, count)
    ensures IsDocxPath(base) ==> (p == base <==> count == 1)
  {
    if count == 1 then base else SplitPath(base, count)
  }

  /** For a path ending in ".docx" with no other '.', document n is stem_n.docx. */
  lemma SplitPathOfDocx(stem: string, n: nat)
    requires '.' !in stem
    ensures SplitPath(stem + ".docx", n) == stem + "_" + NatToDecimal(n) + ".docx"
  {
    var base := stem + ".docx";
    assert base[..|base| - 5] == stem;
    assert base[|base| - 5..] == ".docx";
  }

  /** The output path the program always uses, and its name without the extension. */
  const ReportStem: string := "ClusteredEmailReport"
  const ReportPath: string := ReportStem + ".docx"

  /** The numbered parts of the report are named ClusteredEmailReport_n.docx. */
  lemma ReportPartPath(n: nat)
    ensures SplitPath(ReportPath, n) == ReportStem + "_" + NatToDecimal(n) + ".docx"
  {
    assert '.' !in ReportStem;
    SplitPathOfDocx(ReportStem, n);
  }

  // --------------------------------------------------------------- items

  /** The items of every cluster, rendered at its 1-based position out of all of them. */
  function RenderAll(gs: seq<Group>): (blocks: seq<seq<Item>>)
    ensures |blocks| == |gs|
  {
    Positioned(gs, |gs|, ClusterItems)
  }

  /** Cluster i (from 0) is rendered at 1-based position i + 1 out of all the clusters. */
  lemma {:induction false} RenderAllAt(gs: seq<Group>, i: nat)
    requires i < |gs|
    ensures RenderAll(gs)[i] == ClusterItems(gs[i], i + 1, |gs|)
  {
    PositionedAt(gs, |gs|, ClusterItems, i);
  }

  /** The items of the clusters at 1-based positions lo .. hi - 1, in order. */
  function ItemsOf(blocks: seq<seq<Item>>, lo: nat, hi: nat): seq<Item>
    requires 1 <= lo <= hi <= |blocks| + 1
    decreases hi - lo
  {
    if lo == hi then []
    else ItemsOf(blocks, lo, hi - 1) + blocks[hi - 2]
  }

  /** Everything written, document after document. */
  function Flatten(files: seq<DocFile>): seq<Item> {
    if files == [] then [] else Flatten(files[..|files| - 1]) + files[|files| - 1].items
  }

  /**
   * The state of the writing loop after count clusters: counter documents
   * begun, all but the current one closed under their numbered paths, each
   * closed one holding its 5000 clusters, and the open one holding the
   * clusters since.
   */
  ghost predicate Written(blocks: seq<seq<Item>>, base: string, count: nat, counter: nat,
                          files: seq<DocFile>, current: seq<Item>) {
    && count <= |blocks|
    && counter == FileOf(count)
    && |files| == counter - 1
    && FirstOf(counter) <= count + 1
    && (forall f :: 0 <= f < |files| ==>
          files[f] == DocFile(SplitPath(base, f + 1), ItemsOf(blocks, FirstOf(f + 1), FirstOf(f + 2))))
    && current == ItemsOf(blocks, FirstOf(counter), count + 1)
    && Flatten(files) + current == ItemsOf(blocks, 1, count + 1)
  }

  /** Writing one more cluster, after closing the open document when the guard says so. */
  lemma WriteStep(blocks: seq<seq<Item>>, base: string, count: nat, counter: nat,
                  files: seq<DocFile>, current: seq<Item>)
    requires Written(blocks, base, count, counter, files, current)
    requires count < |blocks|
    ensures StartsNewFile(count + 1) ==>
      Written(blocks, base, count + 1, counter + 1,
              files + [DocFile(SplitPath(base, counter), current)], blocks[count])
    ensures !StartsNewFile(count + 1) ==>
      Written(blocks, base, count + 1, counter, files, current + blocks[count])
  {
    StartsNewFileExactly(count + 1);
    if StartsNewFile(count + 1) {
      WriteAfterClose(blocks, base, count, counter, files, current);
    } else {
      WriteIntoCurrent(blocks, base, count, counter, files, current);
    }
  }

  /** The open document is closed under its number and the cluster starts the next one. */
  lemma WriteAfterClose(blocks: seq<seq<Item>>, base: string, count: nat, counter: nat,
                        files: seq<DocFile>, current: seq<Item>)
    requires Written(blocks, base, count, counter, files, current)
    requires count < |blocks|
    requires FileOf(count + 1) == counter + 1
    ensures Written(blocks, base, count + 1, counter + 1,
                    files + [DocFile(SplitPath(base, counter), current)], blocks[count])
  {
    var files' := files + [DocFile(SplitPath(base, counter), current)];
    assert FirstOf(counter + 1) == count + 1;
    assert ItemsOf(blocks, count + 1, count + 2) == blocks[count];
    assert Flatten(files') + blocks[count] == ItemsOf(blocks, 1, count + 2) by {
      assert files'[..|files|] == files;
      assert Flatten(files') == Flatten(files) + current;
    }
    forall f | 0 <= f < |files'|
      ensures files'[f] == DocFile(SplitPath(base, f + 1), ItemsOf(blocks, FirstOf(f + 1), FirstOf(f + 2)))
    {
      if f < |files| {
        assert files'[f] == files[f];
      }
    }
  }

  /** The cluster is appended to the open document. */
  lemma WriteIntoCurrent(blocks: seq<seq<Item>>, base: string, count: nat, counter: nat,
                         files: seq<DocFile>, current: seq<Item>)
    requires Written(blocks, base, count, counter, files, current)
    requires count < |blocks|
    requires FileOf(count + 1) == counter
    ensures Written(blocks, base, count + 1, counter, files, current + blocks[count])
  {
    assert Flatten(files) + (current + blocks[count]) == (Flatten(files) + current) + blocks[count];
  }

  /**
   * The documents written for the rendered clusters: one per 5000 clusters
   * (one when there are none); document f holds exactly the clusters at
   * positions 5000(f - 1) + 1 .. 5000f; all documents but the last are
   * numbered by their position; the last keeps the output path when it is
   * the only document and is numbered otherwise; and nothing is lost or
   * repeated across documents.
   */
  ghost predicate LaidOut(blocks: seq<seq<Item>>, base: string, files: seq<DocFile>) {
    && |files| == FileOf(|blocks|)
    && (forall f :: 0 <= f < |files| ==>
          files[f].items == ItemsOf(blocks, FirstOf(f + 1), EndOf(f + 1, |blocks|)))
    && (forall f :: 0 <= f < |files| - 1 ==> files[f].path == SplitPath(base, f + 1))
    && files[|files| - 1].path == (if |blocks| <= 5000 then base else SplitPath(base, |files|))
    && Flatten(files) == ItemsOf(blocks, 1, |blocks| + 1)
  }

  /** Closing the last document under its final path. */
  lemma WriteLast(blocks: seq<seq<Item>>, base: string, counter: nat,
                  files: seq<DocFile>, current: seq<Item>)
    requires Written(blocks, base, |blocks|, counter, files, current)
    ensures LaidOut(blocks, base, files + [DocFile(FinalPath(base, counter), current)])
  {
    var all := files + [DocFile(FinalPath(base, counter), current)];
    assert all[..|files|] == files;
    assert |files| + 1 == counter;
    LastItems(blocks, files, all);
    LastPaths(blocks, base, counter, files, current, all);
    assert Flatten(all) == Flatten(files) + current;
  }

  /** After the last document is closed, each document holds its own stretch of clusters. */
  lemma LastItems(blocks: seq<seq<Item>>, files: seq<DocFile>, all: seq<DocFile>)
    requires |files| + 1 == FileOf(|blocks|)
    requires forall f :: 0 <= f < |files| ==>
      files[f].items == ItemsOf(blocks, FirstOf(f + 1), FirstOf(f + 2))
    requires |all| == |files| + 1 && all[..|files|] == files
    requires all[|files|].items == ItemsOf(blocks, FirstOf(|files| + 1), |blocks| + 1)
    ensures forall f :: 0 <= f < |all| ==>
      all[f].items == ItemsOf(blocks, FirstOf(f + 1), EndOf(f + 1, |blocks|))
  {
    forall f | 0 <= f < |all|
      ensures all[f].items == ItemsOf(blocks, FirstOf(f + 1), EndOf(f + 1, |blocks|))
    {
      if f < |files| {
        assert all[f] == files[f] by { assert all[f] == all[..|files|][f]; }
      }
      FileItemsAt(blocks, f, all[f], f < |files|);
    }
  }

  /** Document f (from 0) holds its own stretch, whether it was closed in the loop or is the last. */
  lemma FileItemsAt(blocks: seq<seq<Item>>, f: nat, file: DocFile, closed: bool)
    requires f + 1 <= FileOf(|blocks|)
    requires closed <==> f + 1 < FileOf(|blocks|)
    requires closed ==> file.items == ItemsOf(blocks, FirstOf(f + 1), FirstOf(f + 2))
    requires !closed ==> file.items == ItemsOf(blocks, FirstOf(f + 1), |blocks| + 1)
    ensures 1 <= FirstOf(f + 1) <= EndOf(f + 1, |blocks|) <= |blocks| + 1
    ensures file.items == ItemsOf(blocks, FirstOf(f + 1), EndOf(f + 1, |blocks|))
  {
    if closed {
      ClosedFileItems(blocks, file, f);
    } else {
      LastFileItems(blocks, f, file.items);
    }
  }

  /** A closed document f (from 0) holds the stretch that ends where the next document begins. */
  lemma ClosedFileItems(blocks: seq<seq<Item>>, file: DocFile, f: nat)
    requires f + 1 < FileOf(|blocks|)
    requires file.items == ItemsOf(blocks, FirstOf(f + 1), FirstOf(f + 2))
    ensures 1 <= FirstOf(f + 1) <= EndOf(f + 1, |blocks|) <= |blocks| + 1
    ensures file.items == ItemsOf(blocks, FirstOf(f + 1), EndOf(f + 1, |blocks|))
  {
    StretchBounds(|blocks|, f + 1);
    ClosedFileIsFull(|blocks|, f + 1);
  }

  /** The open document f (from 0), once closed, holds the stretch that runs to the last cluster. */
  lemma LastFileItems(blocks: seq<seq<Item>>, f: nat, items: seq<Item>)
    requires f + 1 == FileOf(|blocks|)
    requires items == ItemsOf(blocks, FirstOf(f + 1), |blocks| + 1)
    ensures 1 <= FirstOf(f + 1) <= EndOf(f + 1, |blocks|) <= |blocks| + 1
    ensures items == ItemsOf(blocks, FirstOf(f + 1), EndOf(f + 1, |blocks|))
  {
    StretchBounds(|blocks|, f + 1);
    LastFileRunsToEnd(|blocks|);
  }

  /** After the last document is closed, the documents carry their numbered or final paths. */
  lemma LastPaths(blocks: seq<seq<Item>>, base: string, counter: nat,
                  files: seq<DocFile>, current: seq<Item>, all: seq<DocFile>)
    requires Written(blocks, base, |blocks|, counter, files, current)
    requires all == files + [DocFile(FinalPath(base, counter), current)]
    ensures forall f :: 0 <= f < |all| - 1 ==> all[f].path == SplitPath(base, f + 1)
    ensures all[|all| - 1].path
         == (if |blocks| <= 5000 then base else SplitPath(base, |all|))
  {
    assert forall f :: 0 <= f < |files| ==> all[f] == files[f];
    SingleFileExactly(|blocks|);
  }

  /** Document f's stretch of clusters is a valid range of positions. */
  lemma StretchBounds(n: nat, f: nat)
    requires 1 <= f <= FileOf(n)
    ensures 1 <= FirstOf(f) <= EndOf(f, n) <= n + 1
  {
  }

  /** The last document runs to the last cluster. */
  lemma LastFileRunsToEnd(n: nat)
    ensures EndOf(FileOf(n), n) == n + 1
  {
  }

  /** Every document before the last one ends where the next one begins. */
  lemma ClosedFileIsFull(n: nat, f: nat)
    requires 1 <= f < FileOf(n)
    ensures EndOf(f, n) == FirstOf(f + 1)
  {
    assert f * 5000 <= (FileOf(n) - 1) * 5000 < n;
  }

  /** The writing loop over the rendered clusters, then the last document. */
  method WriteFiles(blocks: seq<seq<Item>>, base: string) returns (files: seq<DocFile>)
    ensures LaidOut(blocks, base, files)
  {
    var counter, current;
    files, counter, current := WriteClusters(blocks, base);
    WriteLast(blocks, base, counter, files, current);
    files := files + [DocFile(FinalPath(base, counter), current)];
  }

  /**
   * The loop of the writer: every cluster in turn, closing the open document
   * under its number before each cluster that starts a new one.  It returns
   * the closed documents, the number of the open one and its items.
   */
  method WriteClusters(blocks: seq<seq<Item>>, base: string)
    returns (files: seq<DocFile>, counter: nat, current: seq<Item>)
    ensures Written(blocks, base, |blocks|, counter, files, current)
  {
    var count := 0;
    counter := 1;
    current := [];
    files := [];
    while count < |blocks|
      invariant Written(blocks, base, count, counter, files, current)
      decreases |blocks| - count
    {
      WriteStep(blocks, base, count, counter, files, current);
      ghost var closes := StartsNewFile(count + 1);
      count := count + 1;
      if count % 5000 == 1 && count > 1 {
        assert closes;
        files := files + [DocFile(SplitPath(base, counter), current)];
        counter := counter + 1;
        current := [];
      } else {
        assert !closes;
      }
      current := current + blocks[count - 1];
    }
  }

  // ------------------------------------------------------------ pipeline

  /**
   * The whole run: read the sheet, group the rows, render each cluster at
   * its position and write the documents.  A schema error stops the run
   * before anything is written.  Otherwise document f holds the clusters at
   * positions 5000(f - 1) + 1 .. 5000f in ascending key order, every
   * document but the last is numbered, and the last keeps the output path
   * exactly when there are at most 5000 clusters.
   */
  method Report(sheet: Option<Sheet>, base: string) returns (r: Result<seq<DocFile>, SchemaError>)
    ensures r.Err? <==> ReadSheet(sheet).Err?
    ensures r.Err? ==> r.error == ReadSheet(sheet).error
    ensures r.Ok? ==> LaidOut(RenderAll(GroupAll(ReadSheet(sheet).value)), base, r.value)
  {
    var read := ReadSheet(sheet);
    if read.Err? {
      r := Err(read.error);
    } else {
      var blocks := RenderAll(GroupAll(read.value));
      var files := WriteFiles(blocks, base);
      r := Ok(files);
    }
  }

  /**
   * Separators do not depend on document boundaries: when the clusters come
   * from a grouping (no empty cluster), every document but the last ends with
   * a separator, because its last cluster is not the last one overall.
   */
  lemma NonFinalFileEndsWithSeparator(gs: seq<Group>, f: nat)
    requires NonEmpty(gs)
    requires 1 <= f && f * 5000 < |gs|
    ensures var items := ItemsOf(RenderAll(gs), FirstOf(f), EndOf(f, |gs|));
      items != [] && items[|items| - 1] == Separator
  {
    var blocks := RenderAll(gs);
    var i := f * 5000 - 1;
    RenderedEndsWithSeparator(gs, i);
    FileEndsWithSeparator(blocks, |gs|, f, i);
  }

  /** Document f, not the last, ends with a separator when its last cluster does. */
  lemma FileEndsWithSeparator(blocks: seq<seq<Item>>, n: nat, f: nat, i: nat)
    requires n == |blocks|
    requires 1 <= f && f * 5000 < n && i == f * 5000 - 1
    requires blocks[i] != [] && blocks[i][|blocks[i]| - 1] == Separator
    ensures var items := ItemsOf(blocks, FirstOf(f), EndOf(f, n));
      items != [] && items[|items| - 1] == Separator
  {
    StretchEndsWithSeparator(blocks, FirstOf(f), f * 5000 + 1);
  }

  /** A stretch of clusters whose last cluster ends with a separator ends with one. */
  lemma StretchEndsWithSeparator(blocks: seq<seq<Item>>, lo: nat, hi: nat)
    requires 1 <= lo < hi <= |blocks| + 1
    requires blocks[hi - 2] != [] && blocks[hi - 2][|blocks[hi - 2]| - 1] == Separator
    ensures var items := ItemsOf(blocks, lo, hi);
      items != [] && items[|items| - 1] == Separator
  {
    ItemsOfEndsWithLastBlock(blocks, lo, hi);
  }

  /** Every cluster but the last overall is rendered ending with a separator. */
  lemma RenderedEndsWithSeparator(gs: seq<Group>, i: nat)
    requires NonEmpty(gs)
    requires i + 1 < |gs|
    ensures RenderAll(gs)[i] != [] && RenderAll(gs)[i][|RenderAll(gs)[i]| - 1] == Separator
  {
    RenderAllAt(gs, i);
    ClusterEndsWithSeparator(gs[i], i + 1, |gs|);
  }

  /** A stretch of clusters ends the way its last cluster's items end. */
  lemma ItemsOfEndsWithLastBlock(blocks: seq<seq<Item>>, lo: nat, hi: nat)
    requires 1 <= lo < hi <= |blocks| + 1
    requires blocks[hi - 2] != []
    ensures var items := ItemsOf(blocks, lo, hi);
      items != [] && items[|items| - 1] == blocks[hi - 2][|blocks[hi - 2]| - 1]
  {
  }
}
